=== FILE: README.md ===
# makedown `x`: a Dafny model of its parser and dispatcher

`x` is a command runner. Commands are kept in Markdown documents: `x.md` files, and
`.md` files under `x/` folders, in the working directory and each of its parent
directories. A document is a preamble followed by `## name` sections. Each section holds
a description and one fenced code block; the block's info string, called the *tag*
here, names the language. The invocation `x name args…` works as follows:

- The body of the first command called `name` is written to a temporary script.
- That script is run with the interpreter for its tag, and `args` are forwarded.
- The temporary script is removed.
- `x` exits with the interpreter's status.

The built-in arguments are `--help` and no argument (a listing), `--zsh-completion` and
`--list-commands`. `name --help` prints a command's description.

This project models the pure part of `x.js`, between the directory walk and the child
process. Every module is a Dafny module of its own:

- `Text` covers the JavaScript string operations the parser uses:
  - `trim()`, restricted to ASCII white space;
  - `indexOf`;
  - `split` with a string separator;
  - `join`;
  - `block.slice(block.indexOf("\n") + 1)`.

  It proves their contracts, such as `Join(Split(s, sep), sep) == s` and the idempotence of `Trim`.
- `Markdown` is the document parser.
  - `Sections` is `split(/^## /m)`, which recognises headings on the whole text.
  - `StripTitle` is `replace(/^# .*$/m, "")`.
  - `ParseSection` turns one section into a command, or into no command when it has no fence.
  - `ParseDocument` parses a whole document, and `SectionRoundTrip` proves the parser inverts a renderer for well-formed commands.
- `Interpreters` holds the two lookup tables: tag to executable, and executable to
  temporary-file extension.
- `Sources` is the sort of the discovered paths. It is an insertion sort under
  lexicographic order, proved sorted, a permutation of its input, and independent of
  the discovery order.
- `Dispatch` covers resolution and classification:
  - the first-match lookup, as a function (`Lookup`) and as a scanning loop (`Resolve`), proved to agree;
  - the classification of the process arguments into an `Outcome` (`Decide`).
- `Execution` gives the effects of an outcome, as a trace: output, the temporary-script
  write, the interpreter start, removal and exit. The outside world's answers are
  parameters: the time stamp, and whether the write, the start or the removal fails.
- `Pipeline` is one invocation. The paths are sorted, every document is parsed, and only
  then are the arguments classified. `Effects` is the trace of the script as written.
  `CorrectedEffects` is the trace with `--list-commands` fixed, and the two differ only
  there. The trace lemmas in `Execution` speak of the corrected `Execute`. For every
  outcome other than `ListCommands`, `ExecuteAsWritten` is `Execute`, so they hold for
  the script as written too.

Behaviours of the script worth knowing:

- Resolution scans documents in sorted path order (x.js:61), the only order the script
  has.
- A command whose tag has no interpreter is reported, and the process exits with status 0.
- The `--list-commands` branch throws before printing anything. See "## Findings".
- A document with a section that has no fenced block makes every invocation fail, even
  `x --help`. The documents are parsed eagerly before the arguments are read.
- A missing interpreter executable does not make the start throw. It shows as a run
  without exit status (`ExitWithoutStatus`), not as exit status 1.
- When writing the temporary script fails, the model assumes no file was created, so no
  removal is attempted. See `Execution.RunEffects` under "## Left out".

## Model

| member | source | states |
|---|---|---|
| Text.Trim | x.js:66 | the result is the input without its leading and trailing white space, and no longer starts or ends with white space |
| Text.TrimPadded | x.js:66 | white space around a trimmed, non-empty core is exactly what trimming removes |
| Text.TrimIdempotent | x.js:73 | trimming twice is trimming once |
| Text.TrimKeepsContains | x.js:78-80 | trimming keeps and adds no occurrence of a marker that does not start or end with white space, so trimming the section body never hides the fence |
| Text.IndexOf | x.js:78 | the first occurrence of the pattern, or none exactly when the pattern does not occur |
| Text.Split | x.js:79-80 | joining the pieces with the separator gives the input back; no piece holds the separator; each cut is the leftmost occurrence after the previous piece, since no occurrence starts inside a piece and runs into the separator that ends it; there is one piece exactly when the separator is absent; the first piece is the text before the first occurrence |
| Text.FirstCutLeftmost | x.js:79-80 | before the first occurrence of a separator, no occurrence starts that overlaps it |
| Text.FirstLine | x.js:82 | the first piece of a split on line breaks: a prefix without a line break, followed by a line break or the end |
| Text.AfterFirstLine | x.js:78 | the text after the first line break, or the whole text when there is none |
| Text.RestLines | x.js:85 | the lines after the first, joined with line breaks: the first line, a line break and this give the text back; it is empty for a single line |
| Text.LineBreakSplits | x.js:78-85 | for a first line without a line break, the three line operations return that line and the rest |
| Text.RestLinesAvoids | x.js:85 | the rejoined lines contain no pattern the text lacked |
| Text.SplitAtFirst | x.js:79-80 | splitting a + p + b at p gives a, then the pieces of b, when a holds no p and its last character is not a character of p (so no p can start in a and overlap the p after it) |
| Markdown.SectionsFrom | x.js:71 | one piece more than there are line-start "## " headings after the position; joined with "## " they give that text back; every cut between two pieces is a line-start heading, so the cuts are exactly the headings |
| Markdown.Sections | x.js:75 | `split(/^## /m)`: one piece more than there are headings; joining gives the text back; each cut is at a line-start "## ", so piece k+1 is the text after the k+1-th heading up to the next |
| Markdown.Preamble | x.js:71 | the preamble is piece 0 of the heading split |
| Markdown.StripTitle | x.js:72 | without a line-start "# " the text is unchanged; otherwise the first such line is cut out up to its line break, which stays |
| Markdown.LineEnd | x.js:72 | the line containing a position ends at the next line break or at the end, and holds no line break before that |
| Markdown.FencedText | x.js:80 | there is fenced text exactly when the body holds a fence; it is the trimmed text after the first fence, up to the next fence or the end |
| Markdown.ParseSection | x.js:77-87 | a section gives no command exactly when its trimmed body holds no fence |
| Markdown.SectionNeedsFence | x.js:78-80 | a section gives no command exactly when the text after its heading line holds no fence, as when reading the missing piece throws |
| Markdown.SectionShape | x.js:78-86 | the name is the trimmed first line; the name and the tag are trimmed single lines; the description is trimmed and free of fences; the body holds no fence |
| Markdown.SectionInfo | x.js:78-79 | the description is the trimmed text before the body's first fence |
| Markdown.SectionCode | x.js:80-85 | the tag is the trimmed first line of the fenced text; the body is the rest of the fenced text verbatim, or empty when there is one line |
| Markdown.SectionRoundTrip | x.js:77-87 | parsing a rendered well-formed command gives that command back, with its body's inner lines and leading white space unchanged |
| Markdown.Collect | x.js:77 | all commands when every section parsed, in order; otherwise the index of the first section that did not |
| Markdown.ParseSections | x.js:74-87 | `blocks.map(...)`: success exactly when every section has a fence, with command k the parse of section k; otherwise the first failing section |
| Markdown.MapSeq | x.js:77 | the k-th result is the callback applied to the k-th element |
| Markdown.ParseDocument | x.js:63-88 | one command per line-start "## " of the trimmed text; the description is the trimmed preamble with its first title line blanked; a failure names a section |
| Markdown.DocumentCommandsInOrder | x.js:74-77 | the k-th command is the parse of the k-th section, in source order |
| Markdown.DocumentFailsOnMissingFence | x.js:77-80 | a document fails to parse exactly when one of its sections has no fence |
| Markdown.SectionsFailAt | x.js:76-77 | the sections after the preamble fail exactly when one of them has no command |
| Interpreters.InterpreterFor | x.js:178-181 | an interpreter exactly for the seven tags; its executable is the tag's entry in the first table |
| Interpreters.ExtensionsCoverExecutables | x.js:10-26 | every executable of the first table has an extension, so the composition at line 181 never reads a missing entry; the supported tags are exactly zsh, sh, bash, js, javascript, py and python |
| Interpreters.InterpreterTable | x.js:10-26 | the composed table entry by entry, e.g. `js` and `javascript` give `node` with `mjs` |
| Interpreters.AliasesAgree | x.js:10-26 | two supported tags share an executable exactly when they share an extension |
| Sources.LessEqTotal | x.js:61 | any two paths are ordered one way or the other |
| Sources.LessEqAntisymmetric | x.js:61 | paths ordered both ways are equal |
| Sources.LessEqTransitive | x.js:61 | the path order is transitive |
| Sources.Insert | x.js:61 | inserting into a sorted list keeps it sorted and adds exactly that element |
| Sources.SortPaths | x.js:61 | `sources.sort()`: the result is sorted and a permutation of the discovered paths |
| Sources.SortedUnique | x.js:61 | two sorted arrangements of the same paths are equal |
| Sources.SortIgnoresDiscoveryOrder | x.js:61 | the sorted list depends only on which paths were found |
| Sources.SortIdempotent | x.js:61 | sorting sorted paths changes nothing |
| Dispatch.FirstIn | x.js:170-171 | the first command of a document with the name, or none when none has it |
| Dispatch.LookupFindsFirst | x.js:169-171 | when a position holds the first command with the name, in document then section order, the lookup returns that command |
| Dispatch.LookupFailsWhenAbsent | x.js:169-171 | the lookup fails exactly when no command has the name |
| Dispatch.LookupIsFirst | x.js:169-171 | a command found by the lookup sits at the first position holding that name |
| Dispatch.Resolve | x.js:169-171 | the nested scan stops at the first position with the name, finds none exactly when the name is absent, and agrees with the lookup |
| Dispatch.NamedIn | x.js:165 | a name is among a document's names exactly when the document has such a command |
| Dispatch.NamesAreResolvable | x.js:165 | a name is listed exactly when looking it up finds a command |
| Dispatch.Decide | x.js:106-221 | a listing exactly for no argument, an empty one or `--help`; completion and the command list exactly for their flags; not found exactly for an unreserved name that no command has, reporting that name |
| Dispatch.ReservedIgnoresDocuments | x.js:106-162 | for the first arguments `""`, `--help` and `--zsh-completion` the outcome does not depend on the documents, so commands with those names never run |
| Dispatch.MatchedOutcome | x.js:171-216 | for the first command with an unreserved name (not `""`, `--help`, `--zsh-completion` or `--list-commands`, which are classified first): help when the next argument is `--help`; otherwise the unsupported-tag error, or a run of its body with the tag's interpreter |
| Dispatch.HelpBeforeInterpreter | x.js:173-178 | a help request is answered before the tag is checked |
| Dispatch.EarlierDocumentsWin | x.js:169-171 | appending documents never changes the outcome for a first argument other than `--list-commands` that an earlier document defines as a name |
| Dispatch.LookupAppend | x.js:169-171 | appending documents keeps the lookup of a name already present |
| Dispatch.RunForwardsArguments | x.js:178-198 | a run forwards exactly the arguments after the name, which do not start with `--help`; its tag is supported, and its extension is one of zsh, sh, bash, mjs, py |
| Execution.TempPath | x.js:179-182 | the temporary name starts with ".x-" and the stamp, and ends with "." and the extension |
| Execution.Cleanup | x.js:184-192 | one removal attempt: the file is removed, or the failure is only reported |
| Execution.ListCommandsOutput | x.js:165-166 | one printed line per name, in order, then exit 0 |
| Execution.ExitsOnceAtEnd | x.js:144-221 | every trace, as written or corrected, ends the process exactly once, as its last effect |
| Execution.ExitStatus | x.js:144-221 | as written: exit 0 for the listing, the completion script, help and an unsupported tag; 1 for `--list-commands`, an unknown name and a write or start that throws; otherwise the interpreter's status, or its missing status. Corrected, `--list-commands` exits 0 and nothing else changes |
| Execution.WritesOnlyToRun | x.js:178-216 | a temporary script is written exactly for a run whose write succeeds, so never for an unsupported tag |
| Execution.CleansUpAfterWrite | x.js:184-212 | the written script holds the command body at the temporary path; its removal is attempted exactly once, after the write and before the exit, whether the interpreter ran or starting it threw; nothing unwritten is removed |
| Execution.SpawnsWrittenScript | x.js:195-203 | the interpreter is started at most once, after the write, on the written path followed by the forwarded arguments |
| Execution.OnlyRunsTouchFiles | x.js:106-176 | an outcome other than a run writes, starts and removes nothing |
| Execution.ListCommandsPrintsNames | x.js:164-167 | corrected `--list-commands` prints line k as the k-th command's name in document-then-section order, one line per command, each a name that resolves, then exits 0 |
| Execution.ReservedTraceIgnoresDocuments | x.js:106-167 | for every reserved first argument, `--list-commands` included, the trace of the script as written is the same whatever the documents hold, so commands with those names never run |
| Execution.EarlierDocumentsWinTrace | x.js:164-171 | as the script is written, appending documents never changes the trace for a first argument an earlier document defines as a name, `--list-commands` included |
| Execution.ListCommandsAsWrittenFails | x.js:164-167 | `--list-commands` as written prints nothing and exits 1, unlike the corrected branch whenever a command exists |
| Pipeline.Load | x.js:63-88 | one module per path, in order, each from that path's parse; failure exactly when some document fails, reporting the first one |
| Pipeline.ParseFailureIgnoresArguments | x.js:63-106 | a document that does not parse fails the invocation whatever the arguments |
| Pipeline.ParseFailureEffects | x.js:77-80 | such a failure ends in the uncaught runtime error and exit 1, before any output or file, with or without the correction |
| Pipeline.CorrectionOnlyListsCommands | x.js:164-167 | the script as written and the corrected one have the same effects for every argument but `--list-commands`; for that one, when the documents parse, the script dies with a ReferenceError and exit 1 while the correction exits 0 |
| Pipeline.DiscoveryOrderIrrelevant | x.js:61 | the decision does not depend on the order in which the walk found the documents |
| Pipeline.RunsFirstMatch | x.js:169-171 | a run executes the body and tag of the first command with the name, scanning documents by sorted path |

## Left out

- The directory walk (x.js:28-59) is left out: `readdirSync`, `statSync`, `existsSync`, and the upward and recursive enumeration are I/O. The discovered paths are an input, and only their sort is modelled.
- Reading a file is the parameter `read` of `ParseFile`. Writing, removing, starting the interpreter and exiting are effects in a trace, not performed.
- The time stamp and random number in the temporary name are the parameter `stamp`. The name is taken relative to the working directory, as `path.join(".", …)` gives it.
- Presentation is not modelled: the listing layout, the column widths, the ANSI colours, the version banner and the completion script (x.js:90-160). `PrintListing` and `PrintCompletion` stand for that output. Error messages are modelled without their colour codes.
- Sources.LessEq: JavaScript's default `sort` compares UTF-16 code units, and the model compares characters. The two orders differ only for characters outside the Basic Multilingual Plane.
- Text.Trim: white space is ASCII only: space, tab, line feed, carriage return, vertical tab and form feed. JavaScript also trims Unicode spaces and line separators.
- Markdown.Sections, Markdown.StripTitle, Markdown.LineEnd: only "\n" ends a line. In the regular expressions of x.js:71-72, JavaScript's `^` and `$` under the `m` flag, and `.`, also treat "\r", U+2028 and U+2029 as line ends.
- Interpreters.InterpreterFor: the tables are the seven and five listed keys. The source's `interpreters[type]` would also find names inherited from `Object.prototype`, such as `toString`.
- Execution.ExitStatus: the exit code of `process.exit(null)` is not modelled. `ExitWithoutStatus` marks that case, which arises when the interpreter is killed by a signal or cannot be found.
- Execution.RunEffects: if writing the temporary script fails part way, a file may be left behind, and `cleanup` would then remove it. The model assumes a failed write leaves no file. It also assumes the interpreter does not itself delete the script.
- Pipeline.Effects: the exact text of the uncaught runtime error, and the stack trace the runtime prints, depend on the runtime version.

## Findings

| source | as written | input that shows it | evidently intended | confidence | as-written member | corrected member |
|---|---|---|---|---|---|---|
| x.js:164-167 | `commands.forEach(...)` reads `commands`, which is not declared at the top level: it exists only as a property of each module and as a loop variable further down. The branch throws a ReferenceError, prints nothing and exits 1 | `x --list-commands` with any documents, including none | print the name of every command, one per line, then exit 0; this is what the zsh completion at x.js:153 consumes | high (not executed) | Execution.EarlierDocumentsWinTrace | x.js:164-171 | as the script is written, appending documents never changes the trace for a first argument an earlier document defines as a name, `--list-commands` included |
| Execution.ListCommandsAsWrittenFails | Execution.ListCommandsPrintsNames |

=== FILE: dispatch.dfy ===
/** What one invocation decides to do, given the parsed documents in the
    order they are consulted and the process arguments: the built-in
    listings, a command's help, running a command, or an error. */
module Dispatch {
  import opened Wrappers
  import opened Markdown
  import opened Interpreters

  /** One parsed document together with the path it was read from. */
  datatype Module = Module(source: string, info: string, commands: seq<Command>)

  /** A command's place: the document, then the section within it. */
  datatype Position = Position(doc: nat, section: nat)

  datatype Outcome =
    | Listing
    | Completion
    | ListCommands(names: seq<string>)
    | ShowHelp(info: string)
    | Unsupported(tag: string)
    | Run(tag: string, executable: string, extension: string, code: string, forwarded: seq<string>)
    | NotFound(name: string)

  // ---------------------------------------------------------------------
  // Resolution: the first command with the requested name

  predicate NamedAt(ms: seq<Module>, p: Position, name: string) {
    p.doc < |ms| && p.section < |ms[p.doc].commands| && ms[p.doc].commands[p.section].name == name
  }

  /** `p` comes before `q` in the scan order: documents first, then sections. */
  predicate Before(p: Position, q: Position) {
    p.doc < q.doc || (p.doc == q.doc && p.section < q.section)
  }

  /** `p` holds the first command called `name`. */
  ghost predicate FirstNamed(ms: seq<Module>, p: Position, name: string) {
    NamedAt(ms, p, name) && forall q :: Before(q, p) ==> !NamedAt(ms, q, name)
  }

  ghost predicate Absent(ms: seq<Module>, name: string) {
    forall q :: !NamedAt(ms, q, name)
  }

  function CommandAt(ms: seq<Module>, p: Position): Command
    requires p.doc < |ms| && p.section < |ms[p.doc].commands|
  {
    ms[p.doc].commands[p.section]
  }

  /** The names of some commands, in order. */
  function CommandNames(cs: seq<Command>): (r: seq<string>)
    ensures |r| == |cs|
    ensures forall k :: 0 <= k < |cs| ==> r[k] == cs[k].name
  {
    seq(|cs|, k requires 0 <= k < |cs| => cs[k].name)
  }

  /** The names of every command of every document, in scan order: what a
      listing of the commands prints. */
  function Names(ms: seq<Module>): seq<string> {
    if ms == [] then [] else CommandNames(ms[0].commands) + Names(ms[1..])
  }

  /** Index of the first command called `name` in a list of commands. */
  function FirstIn(cs: seq<Command>, name: string): (r: Option<nat>)
    ensures r.Some? ==> r.value < |cs| && cs[r.value].name == name
    ensures r.Some? ==> forall k :: 0 <= k < r.value ==> cs[k].name != name
    ensures r.None? ==> forall k :: 0 <= k < |cs| ==> cs[k].name != name
  {
    if cs == [] then None
    else if cs[0].name == name then Some(0)
    else match FirstIn(cs[1..], name)
      case None => None
      case Some(k) => Some(k + 1)
  }

  /** The command an invocation naming `name` selects: the first one in
      the first document that has one. */
  function Lookup(ms: seq<Module>, name: string): (r: Option<Command>)
  {
    if ms == [] then None
    else match FirstIn(ms[0].commands, name)
      case Some(k) => Some(ms[0].commands[k])
      case None => Lookup(ms[1..], name)
  }

  /** Positions in the documents after the first, shifted down by one. */
  lemma NamedAtShift(ms: seq<Module>, p: Position, name: string)
    requires ms != [] && p.doc > 0
    ensures NamedAt(ms, p, name) <==> NamedAt(ms[1..], Position(p.doc - 1, p.section), name)
  {
  }

  /** The functional lookup finds exactly the first named position. */
  lemma {:induction false} LookupFindsFirst(ms: seq<Module>, name: string, p: Position)
    requires FirstNamed(ms, p, name)
    ensures Lookup(ms, name) == Some(CommandAt(ms, p))
    decreases |ms|
  {
    match FirstIn(ms[0].commands, name)
    case Some(k) =>
      if p.doc > 0 || k < p.section {
        assert Before(Position(0, k), p) && NamedAt(ms, Position(0, k), name);
      }
    case None =>
      assert p.doc > 0;
      var p' := Position(p.doc - 1, p.section);
      NamedAtShift(ms, p, name);
      forall q' | Before(q', p')
        ensures !NamedAt(ms[1..], q', name)
      {
        var q := Position(q'.doc + 1, q'.section);
        assert Before(q, p);
        NamedAtShift(ms, q, name);
      }
      LookupFindsFirst(ms[1..], name, p');
  }

  /** The functional lookup fails exactly when no command has the name. */
  lemma {:induction false} LookupFailsWhenAbsent(ms: seq<Module>, name: string)
    ensures Lookup(ms, name).None? <==> Absent(ms, name)
    decreases |ms|
  {
    if ms != [] {
      LookupFailsWhenAbsent(ms[1..], name);
      match FirstIn(ms[0].commands, name)
      case Some(k) =>
        assert NamedAt(ms, Position(0, k), name);
      case None =>
        forall q
          ensures NamedAt(ms, q, name) <==> q.doc > 0 && NamedAt(ms[1..], Position(q.doc - 1, q.section), name)
        {
          if q.doc > 0 {
            NamedAtShift(ms, q, name);
          }
        }
        if !Absent(ms[1..], name) {
          var q' :| NamedAt(ms[1..], q', name);
          assert NamedAt(ms, Position(q'.doc + 1, q'.section), name);
        }
    }
  }

  /** When the functional lookup finds a command, it is the one at the
      first position holding that name. */
  lemma {:induction false} LookupIsFirst(ms: seq<Module>, name: string) returns (p: Position)
    requires Lookup(ms, name).Some?
    ensures FirstNamed(ms, p, name) && Lookup(ms, name) == Some(CommandAt(ms, p))
    decreases |ms|
  {
    match FirstIn(ms[0].commands, name)
    case Some(k) =>
      p := Position(0, k);
    case None =>
      var p' := LookupIsFirst(ms[1..], name);
      p := Position(p'.doc + 1, p'.section);
      NamedAtShift(ms, p, name);
      forall q | Before(q, p)
        ensures !NamedAt(ms, q, name)
      {
        if q.doc > 0 {
          NamedAtShift(ms, q, name);
          assert Before(Position(q.doc - 1, q.section), p');
        }
      }
  }

  /** Scans the documents in order and, within each, the commands in
      order, stopping at the first command called `name`. */
  method Resolve(ms: seq<Module>, name: string) returns (r: Option<Position>)
    ensures r.Some? ==> FirstNamed(ms, r.value, name)
    ensures r.None? <==> Absent(ms, name)
    ensures r.Some? ==> Lookup(ms, name) == Some(CommandAt(ms, r.value))
    ensures r.None? ==> Lookup(ms, name).None?
  {
    var m := 0;
    while m < |ms|
      invariant 0 <= m <= |ms|
      invariant forall q: Position :: q.doc < m ==> !NamedAt(ms, q, name)
    {
      var i := 0;
      while i < |ms[m].commands|
        invariant 0 <= i <= |ms[m].commands|
        invariant forall q: Position :: q.doc < m || (q.doc == m && q.section < i) ==> !NamedAt(ms, q, name)
      {
        if ms[m].commands[i].name == name {
          r := Some(Position(m, i));
          assert FirstNamed(ms, r.value, name);
          LookupFindsFirst(ms, name, r.value);
          return;
        }
        i := i + 1;
      }
      m := m + 1;
    }
    r := None;
    LookupFailsWhenAbsent(ms, name);
  }

  /** A name is among a document's names exactly when the document has a
      command called that. */
  lemma NamedIn(cs: seq<Command>, name: string)
    ensures name in CommandNames(cs) <==> FirstIn(cs, name).Some?
  {
    if name in CommandNames(cs) {
      var k :| 0 <= k < |cs| && CommandNames(cs)[k] == name;
    }
    if FirstIn(cs, name).Some? {
      assert CommandNames(cs)[FirstIn(cs, name).value] == name;
    }
  }

  /** A name is in the listing exactly when looking it up finds a command. */
  lemma {:induction false} NamesAreResolvable(ms: seq<Module>, name: string)
    ensures name in Names(ms) <==> Lookup(ms, name).Some?
    decreases |ms|
  {
    if ms != [] {
      NamesAreResolvable(ms[1..], name);
      NamedIn(ms[0].commands, name);
    }
  }

  // ---------------------------------------------------------------------
  // Classification of the arguments

  /** The first-argument values the script handles before looking for a
      command; a command with one of these names can never be run. */
  predicate Reserved(arg: string) {
    arg == "" || arg == "--help" || arg == "--zsh-completion" || arg == "--list-commands"
  }

  /** `argv` is the whole process argument vector: the runtime, the
      script, then the user's arguments. */
  function Decide(ms: seq<Module>, argv: seq<string>): (r: Outcome)
    ensures r.Listing? <==> |argv| <= 2 || argv[2] == "" || argv[2] == "--help"
    ensures r.Completion? <==> |argv| > 2 && argv[2] == "--zsh-completion"
    ensures r.ListCommands? <==> |argv| > 2 && argv[2] == "--list-commands"
    ensures r.NotFound? <==> |argv| > 2 && !Reserved(argv[2]) && Absent(ms, argv[2])
    ensures r.NotFound? ==> r.name == argv[2]
  {
    LookupFailsWhenAbsent(ms, if |argv| > 2 then argv[2] else "");
    if |argv| <= 2 || argv[2] == "" || argv[2] == "--help" then
      Listing
    else if argv[2] == "--zsh-completion" then
      Completion
    else if argv[2] == "--list-commands" then
      ListCommands(Names(ms))
    else
      match Lookup(ms, argv[2])
      case None => NotFound(argv[2])
      case Some(c) =>
        if |argv| > 3 && argv[3] == "--help" then
          ShowHelp(c.info)
        else
          match InterpreterFor(c.tag)
          case None => Unsupported(c.tag)
          case Some(it) => Run(c.tag, it.executable, it.extension, c.code, argv[3..])
  }

  /** A reserved first argument is handled the same whatever the
      documents define, so commands with those names are unreachable. */
  lemma ReservedIgnoresDocuments(ms: seq<Module>, ms': seq<Module>, argv: seq<string>)
    requires |argv| > 2 && Reserved(argv[2]) && argv[2] != "--list-commands"
    ensures Decide(ms, argv) == Decide(ms', argv)
  {
  }

  /** The outcome for a name that some command has: that first command's
      help, its interpreter error, or its run. */
  lemma MatchedOutcome(ms: seq<Module>, argv: seq<string>, p: Position)
    requires |argv| > 2 && !Reserved(argv[2]) && FirstNamed(ms, p, argv[2])
    ensures var c := CommandAt(ms, p);
      && (|argv| > 3 && argv[3] == "--help" ==> Decide(ms, argv) == ShowHelp(c.info))
      && (!(|argv| > 3 && argv[3] == "--help") && !Supported(c.tag) ==> Decide(ms, argv) == Unsupported(c.tag))
      && (!(|argv| > 3 && argv[3] == "--help") && Supported(c.tag) ==>
            Decide(ms, argv) == Run(c.tag, Executables[c.tag], InterpreterFor(c.tag).value.extension, c.code, argv[3..]))
  {
    LookupFindsFirst(ms, argv[2], p);
  }

  /** A help request is answered before the tag is looked at. */
  lemma HelpBeforeInterpreter(ms: seq<Module>, argv: seq<string>)
    requires |argv| > 3 && !Reserved(argv[2]) && argv[3] == "--help"
    ensures !Decide(ms, argv).Unsupported? && !Decide(ms, argv).Run?
  {
  }

  /** Commands in later documents never shadow an earlier one of the same
      name: appending documents changes nothing for a name already found. */
  lemma EarlierDocumentsWin(ms: seq<Module>, later: seq<Module>, argv: seq<string>)
    requires |argv| > 2 && argv[2] != "--list-commands" && !Absent(ms, argv[2])
    ensures Decide(ms + later, argv) == Decide(ms, argv)
  {
    LookupAppend(ms, later, argv[2]);
  }

  lemma {:induction false} LookupAppend(ms: seq<Module>, later: seq<Module>, name: string)
    requires !Absent(ms, name)
    ensures Lookup(ms + later, name) == Lookup(ms, name)
    decreases |ms|
  {
    LookupFailsWhenAbsent(ms, name);
    assert (ms + later)[0] == ms[0] && (ms + later)[1..] == ms[1..] + later;
    if FirstIn(ms[0].commands, name).None? {
      LookupFailsWhenAbsent(ms[1..], name);
      LookupAppend(ms[1..], later, name);
    }
  }

  /** A run forwards exactly the arguments after the command name, none of
      which is a help request in first place. */
  lemma RunForwardsArguments(ms: seq<Module>, argv: seq<string>)
    requires Decide(ms, argv).Run?
    ensures Decide(ms, argv).forwarded == argv[3..]
    ensures Decide(ms, argv).forwarded == [] || Decide(ms, argv).forwarded[0] != "--help"
    ensures Supported(Decide(ms, argv).tag)
    ensures Decide(ms, argv).extension in {"zsh", "sh", "bash", "mjs", "py"}
  {
  }
}

=== FILE: execution.dfy ===
/** What an outcome does to the outside world, as the sequence of effects
    the script performs: printing, writing the temporary script, starting
    the interpreter, removing the temporary script and exiting. What the
    outside world answers (the time stamp in the temporary name, whether a
    write, a start or a removal fails, the interpreter's exit status) is
    an input. */
module Execution {
  import opened Wrappers
  import opened Dispatch

  datatype Effect =
    | PrintListing
    | PrintCompletion
    | Stdout(text: string)
    | Stderr(text: string)
    | WriteTemp(path: string, content: string)
    | Spawn(executable: string, args: seq<string>)
    | RemoveTemp(path: string)
    | Exit(code: int)
    /** The interpreter ended without an exit status (it was killed by a
        signal, or could not be started), and that missing status is what
        the script exits with. */
    | ExitWithoutStatus
    | Uncaught(error: string)

  /** How starting the interpreter went: it ran and exited with a status,
      it ended without one, or starting it threw. */
  datatype SpawnResult = Exited(status: int) | NoStatus | Threw(message: string)

  datatype Env = Env(stamp: string, writeError: Option<string>, spawn: SpawnResult, removeError: Option<string>)

  /** Name of the temporary script, in the working directory. `stamp`
      stands for the time and random number that make it unique. */
  function TempPath(stamp: string, extension: string): (r: string)
    ensures |r| == 4 + |stamp| + |extension|
    ensures r[..3] == ".x-" && r[3..3 + |stamp|] == stamp
    ensures r[|r| - |extension| - 1..] == "." + extension
  {
    ".x-" + stamp + "." + extension
  }

  function ErrorExecuting(tag: string, message: string): string {
    "x: error executing " + tag + " command: " + message
  }

  function RemovalFailed(path: string, message: string): string {
    "Error removing temporary file " + path + ": " + message
  }

  /** The effect that ends the process. */
  predicate Terminal(e: Effect) {
    e.Exit? || e.ExitWithoutStatus?
  }

  /** An attempt to remove the temporary script at `path`: either it is
      removed or the failure to remove it is reported. */
  predicate RemovalAttempt(e: Effect, path: string, env: Env) {
    e == RemoveTemp(path) || (env.removeError.Some? && e == Stderr(RemovalFailed(path, env.removeError.value)))
  }

  /** Removes the temporary script; it exists whenever this is called. */
  function Cleanup(path: string, env: Env): (r: seq<Effect>)
    ensures |r| == 1 && RemovalAttempt(r[0], path, env)
    ensures r[0].RemoveTemp? <==> env.removeError.None?
  {
    match env.removeError
    case Some(message) => [Stderr(RemovalFailed(path, message))]
    case None => [RemoveTemp(path)]
  }

  /** Writes the command's body to a fresh temporary script, runs the
      interpreter on it with the forwarded arguments, removes the script
      and exits with the interpreter's status; a failure to write or to
      start is reported and exits with 1. */
  function RunEffects(tag: string, executable: string, extension: string, code: string,
                      forwarded: seq<string>, env: Env): seq<Effect>
  {
    var path := TempPath(env.stamp, extension);
    match env.writeError
    case Some(message) =>
      [Stderr(ErrorExecuting(tag, message)), Exit(1)]
    case None =>
      match env.spawn
      case Exited(status) =>
        [WriteTemp(path, code), Spawn(executable, [path] + forwarded)] + Cleanup(path, env) + [Exit(status)]
      case NoStatus =>
        [WriteTemp(path, code), Spawn(executable, [path] + forwarded)] + Cleanup(path, env) + [ExitWithoutStatus]
      case Threw(message) =>
        [WriteTemp(path, code), Stderr(ErrorExecuting(tag, message))] + Cleanup(path, env) + [Exit(1)]
  }

  /** The listing of command names, one per line, that the corrected
      `--list-commands` branch prints. */
  function ListCommandsOutput(names: seq<string>): (r: seq<Effect>)
    ensures |r| == |names| + 1 && r[|names|] == Exit(0)
    ensures forall k :: 0 <= k < |names| ==> r[k] == Stdout(names[k])
  {
    seq(|names|, k requires 0 <= k < |names| => Stdout(names[k])) + [Exit(0)]
  }

  /** What the runtime reports when the `--list-commands` branch reads its
      undeclared variable. */
  const UndeclaredCommands := "ReferenceError: commands is not defined"

  /** The `--list-commands` branch as written: it reads a variable that is
      never declared at that scope, so the runtime throws and the process
      dies with status 1 before printing anything, whatever the names. */
  const ListCommandsAsWritten: seq<Effect> := [Uncaught(UndeclaredCommands), Exit(1)]

  /** The effects of an outcome, with `--list-commands` corrected. */
  function Execute(o: Outcome, env: Env): seq<Effect>
  {
    match o
    case Listing => [PrintListing, Exit(0)]
    case Completion => [PrintCompletion, Exit(0)]
    case ListCommands(names) => ListCommandsOutput(names)
    case ShowHelp(info) => [Stdout(info), Exit(0)]
    case Unsupported(tag) => [Stderr("x: unsupported interpreter " + tag), Exit(0)]
    case NotFound(name) => [Stderr("x: command not found: " + name), Exit(1)]
    case Run(tag, executable, extension, code, forwarded) =>
      RunEffects(tag, executable, extension, code, forwarded, env)
  }

  /** The effects of an outcome as the script is written. */
  function ExecuteAsWritten(o: Outcome, env: Env): seq<Effect>
  {
    if o.ListCommands? then ListCommandsAsWritten else Execute(o, env)
  }

  // ---------------------------------------------------------------------
  // Properties of the traces

  /** Every trace, as written or corrected, ends the process exactly once,
      at its end. */
  lemma ExitsOnceAtEnd(o: Outcome, env: Env)
    ensures var t := Execute(o, env);
      |t| >= 1 && Terminal(t[|t| - 1]) && forall k :: 0 <= k < |t| - 1 ==> !Terminal(t[k])
    ensures var t := ExecuteAsWritten(o, env);
      |t| >= 1 && Terminal(t[|t| - 1]) && forall k :: 0 <= k < |t| - 1 ==> !Terminal(t[k])
  {
    var t := Execute(o, env);
    if o.ListCommands? {
      assert t == ListCommandsOutput(o.names);
      assert forall k :: 0 <= k < |t| - 1 ==> t[k] == Stdout(o.names[k]);
    } else if o.Run? && env.writeError.None? {
      assert |t| == 4 && !Terminal(t[2]);
    }
  }

  /** The exit status of each outcome as the script is written: 0 for the
      listing, the completion script, a help text and an unsupported tag; 1
      for `--list-commands`, an unknown name and a failure to write or start
      the script; otherwise the interpreter's own status. The corrected
      `--list-commands` exits 0 instead, and every other outcome exits alike
      in both. */
  lemma ExitStatus(o: Outcome, env: Env)
    ensures var t := ExecuteAsWritten(o, env);
      && (o.Listing? || o.Completion? || o.ShowHelp? || o.Unsupported? ==> t[|t| - 1] == Exit(0))
      && (o.ListCommands? || o.NotFound? ==> t[|t| - 1] == Exit(1))
      && (o.Run? && (env.writeError.Some? || env.spawn.Threw?) ==> t[|t| - 1] == Exit(1))
      && (o.Run? && env.writeError.None? && env.spawn.Exited? ==> t[|t| - 1] == Exit(env.spawn.status))
      && (t[|t| - 1] == ExitWithoutStatus <==> o.Run? && env.writeError.None? && env.spawn.NoStatus?)
    ensures var t := Execute(o, env);
      && (o.ListCommands? ==> t[|t| - 1] == Exit(0))
      && (!o.ListCommands? ==> t[|t| - 1] == ExecuteAsWritten(o, env)[|t| - 1])
  {
    ExitsOnceAtEnd(o, env);
  }

  /** A temporary script is written only to run a command with a supported
      tag, and then exactly when the write succeeds. */
  lemma WritesOnlyToRun(o: Outcome, env: Env)
    ensures var t := Execute(o, env);
      (exists k :: 0 <= k < |t| && t[k].WriteTemp?) <==> o.Run? && env.writeError.None?
  {
    var t := Execute(o, env);
    if o.Run? && env.writeError.None? {
      assert t[0].WriteTemp?;
    }
  }

  /** Every temporary script written is the command's body at the
      temporary path, and removing it is attempted exactly once, after the
      write and before the process exits, whether the interpreter ran or
      starting it threw; nothing else is ever removed. */
  lemma CleansUpAfterWrite(o: Outcome, env: Env)
    requires o.Run?
    ensures var t := Execute(o, env);
      var path := TempPath(env.stamp, o.extension);
      && (forall k :: 0 <= k < |t| && t[k].WriteTemp? ==> k == 0 && t[k] == WriteTemp(path, o.code))
      && (forall k :: 0 <= k < |t| && t[k].WriteTemp? ==>
            RemovalAttempt(t[|t| - 2], path, env) &&
            forall j :: k < j < |t| - 2 ==> !RemovalAttempt(t[j], path, env))
      && (forall j :: 0 <= j < |t| && t[j].RemoveTemp? ==> j > 0 && t[0] == WriteTemp(t[j].path, o.code))
  {
    var t := Execute(o, env);
    var path := TempPath(env.stamp, o.extension);
    if env.writeError.None? && env.spawn.Threw? {
      var shown := ErrorExecuting(o.tag, env.spawn.message);
      assert t[1] == Stderr(shown) && shown[0] == 'x';
      if env.removeError.Some? {
        assert RemovalFailed(path, env.removeError.value)[0] == 'E';
      }
    }
  }

  /** The interpreter is started at most once, after the script is
      written, with the script's path followed by the forwarded arguments. */
  lemma SpawnsWrittenScript(o: Outcome, env: Env)
    requires o.Run?
    ensures var t := Execute(o, env);
      forall k :: 0 <= k < |t| && t[k].Spawn? ==>
        && k == 1
        && t[k] == Spawn(o.executable, [TempPath(env.stamp, o.extension)] + o.forwarded)
        && t[0] == WriteTemp(t[k].args[0], o.code)
  {
  }

  /** An outcome other than a run touches no file and starts nothing. */
  lemma OnlyRunsTouchFiles(o: Outcome, env: Env)
    requires !o.Run?
    ensures var t := Execute(o, env);
      forall k :: 0 <= k < |t| ==> !t[k].WriteTemp? && !t[k].Spawn? && !t[k].RemoveTemp?
  {
  }

  /** The corrected `--list-commands` prints the name of every command,
      in document-then-section order, one per line, each a name that
      resolves, and succeeds. */
  lemma ListCommandsPrintsNames(ms: seq<Module>, argv: seq<string>, env: Env)
    requires |argv| > 2 && argv[2] == "--list-commands"
    ensures var t := Execute(Decide(ms, argv), env);
      && |t| == |Names(ms)| + 1
      && (forall k :: 0 <= k < |t| - 1 ==> t[k] == Stdout(Names(ms)[k]))
      && (forall k :: 0 <= k < |t| - 1 ==> t[k].Stdout? && Lookup(ms, t[k].text).Some?)
      && t[|t| - 1] == Exit(0)
  {
    var t := Execute(Decide(ms, argv), env);
    forall k | 0 <= k < |t| - 1
      ensures t[k].Stdout? && Lookup(ms, t[k].text).Some?
    {
      assert t[k] == Stdout(Names(ms)[k]);
      NamesAreResolvable(ms, Names(ms)[k]);
    }
  }

  /** A reserved first argument gives the same trace, as the script is
      written, whatever the documents hold: `--list-commands` too, since
      its branch fails before it looks at them. */
  lemma ReservedTraceIgnoresDocuments(ms: seq<Module>, ms': seq<Module>, argv: seq<string>, env: Env)
    requires |argv| > 2 && Reserved(argv[2])
    ensures ExecuteAsWritten(Decide(ms, argv), env) == ExecuteAsWritten(Decide(ms', argv), env)
  {
    if argv[2] != "--list-commands" {
      ReservedIgnoresDocuments(ms, ms', argv);
    }
  }

  /** As the script is written, appending documents changes no trace for
      a first argument an earlier document defines as a name, and that
      includes `--list-commands`, whose branch fails before it looks at any
      document. */
  lemma EarlierDocumentsWinTrace(ms: seq<Module>, later: seq<Module>, argv: seq<string>, env: Env)
    requires |argv| > 2 && !Absent(ms, argv[2])
    ensures ExecuteAsWritten(Decide(ms + later, argv), env) == ExecuteAsWritten(Decide(ms, argv), env)
  {
    if argv[2] != "--list-commands" {
      EarlierDocumentsWin(ms, later, argv);
    }
  }

  /** The `--list-commands` branch as written prints no name and fails,
      even when commands exist. */
  lemma ListCommandsAsWrittenFails(ms: seq<Module>, argv: seq<string>, env: Env)
    requires |argv| > 2 && argv[2] == "--list-commands"
    ensures var t := ExecuteAsWritten(Decide(ms, argv), env);
      && t[|t| - 1] == Exit(1)
      && forall k :: 0 <= k < |t| ==> !t[k].Stdout?
    ensures Names(ms) != [] ==> ExecuteAsWritten(Decide(ms, argv), env) != Execute(Decide(ms, argv), env)
  {
  }
}

=== FILE: interpreters.dfy ===
/** The two lookup tables of the script: which executable runs a fenced
    block with a given tag, and which file extension the temporary script
    handed to that executable gets. */
module Interpreters {
  import opened Wrappers

  /** Tag of a fenced block to the executable that runs it. */
  const Executables: map<string, string> := map[
    "zsh" := "zsh",
    "sh" := "sh",
    "bash" := "bash",
    "js" := "node",
    "javascript" := "node",
    "py" := "python",
    "python" := "python"
  ]

  /** Executable to the extension of the temporary script it is given. */
  const Extensions: map<string, string> := map[
    "zsh" := "zsh",
    "sh" := "sh",
    "bash" := "bash",
    "node" := "mjs",
    "python" := "py"
  ]

  /** The tags the script knows how to run: those the first table names. */
  const SupportedTags: set<string> := Executables.Keys

  datatype Interpreter = Interpreter(executable: string, extension: string)

  predicate Supported(tag: string) {
    tag in SupportedTags
  }

  /** The two tables composed: the executable of the tag and the extension
      of that executable. */
  function InterpreterFor(tag: string): (r: Option<Interpreter>)
    ensures r.Some? <==> Supported(tag)
    ensures r.Some? ==> r.value.executable == Executables[tag]
  {
    if tag in Executables && Executables[tag] in Extensions then
      Some(Interpreter(Executables[tag], Extensions[Executables[tag]]))
    else
      None
  }

  /** Every executable the first table names has an extension in the
      second, so the composition never reads a missing entry. */
  lemma ExtensionsCoverExecutables()
    ensures forall tag :: tag in Executables ==> Executables[tag] in Extensions
    ensures SupportedTags == {"zsh", "sh", "bash", "js", "javascript", "py", "python"}
  {
  }

  /** The composed table, entry by entry. */
  lemma InterpreterTable()
    ensures InterpreterFor("zsh") == Some(Interpreter("zsh", "zsh"))
    ensures InterpreterFor("sh") == Some(Interpreter("sh", "sh"))
    ensures InterpreterFor("bash") == Some(Interpreter("bash", "bash"))
    ensures InterpreterFor("js") == Some(Interpreter("node", "mjs"))
    ensures InterpreterFor("javascript") == Some(Interpreter("node", "mjs"))
    ensures InterpreterFor("py") == Some(Interpreter("python", "py"))
    ensures InterpreterFor("python") == Some(Interpreter("python", "py"))
  {
  }

  /** Tags name the language, so the interpreter does not depend on which
      alias a block uses, and distinct executables have distinct extensions. */
  lemma AliasesAgree(t1: string, t2: string)
    requires InterpreterFor(t1).Some? && InterpreterFor(t2).Some?
    ensures InterpreterFor(t1).value.executable == InterpreterFor(t2).value.executable
        <==> InterpreterFor(t1).value.extension == InterpreterFor(t2).value.extension
  {
  }
}

=== FILE: markdown.dfy ===
/** The command-document parser: one document's text becomes a module
    description plus an ordered list of commands, each with a name, a
    description, an interpreter tag and a body. */
module Markdown {
  import opened Wrappers
  import opened Text

  /** The code-fence marker that delimits a command body. */
  const Fence: string := "```"

  datatype Command = Command(name: string, info: string, tag: string, code: string)

  /** A parsed document before it is tied to its source path. */
  datatype Document = Document(info: string, commands: seq<Command>)

  // ---------------------------------------------------------------------
  // Command headings: `/^## /m`

  /** A line-start "## " begins at `i`. */
  predicate HeadingAt(s: string, i: int) {
    OccursAt(s, "## ", i) && (i == 0 || s[i - 1] == '\n')
  }

  /** The first heading at or after `from`. */
  function NextHeading(s: string, from: nat): (r: Option<nat>)
    requires from <= |s|
    ensures r.Some? ==> from <= r.value && HeadingAt(s, r.value)
    ensures r.Some? ==> forall j :: from <= j < r.value ==> !HeadingAt(s, j)
    ensures r.None? ==> forall j :: from <= j ==> !HeadingAt(s, j)
    decreases |s| - from
  {
    if from == |s| then None
    else if HeadingAt(s, from) then Some(from)
    else NextHeading(s, from + 1)
  }

  /** The number of headings at positions `from` and beyond. */
  function HeadingsFrom(s: string, from: nat): nat
    decreases |s| - from
  {
    if from >= |s| then 0
    else (if HeadingAt(s, from) then 1 else 0) + HeadingsFrom(s, from + 1)
  }

  /** The number of line-start "## " delimiters in `s`. */
  function HeadingCount(s: string): nat {
    HeadingsFrom(s, 0)
  }

  lemma {:induction false} HeadingsSkip(s: string, a: nat, b: nat)
    requires a <= b && forall j :: a <= j < b ==> !HeadingAt(s, j)
    ensures HeadingsFrom(s, a) == HeadingsFrom(s, b)
    decreases b - a
  {
    if a < b && a < |s| {
      HeadingsSkip(s, a + 1, b);
    }
  }

  /** Two line-start headings are at least three characters apart, so a
      heading is followed by no other heading inside its own "## ". */
  lemma HeadingsFromHeading(s: string, i: nat)
    requires HeadingAt(s, i)
    ensures HeadingsFrom(s, i) == 1 + HeadingsFrom(s, i + 3)
  {
    assert s[i..i + 3][0] == s[i] && s[i..i + 3][1] == s[i + 1] && s[i..i + 3][2] == s[i + 2];
    assert !HeadingAt(s, i + 1) && !HeadingAt(s, i + 2);
    assert HeadingsFrom(s, i + 1) == HeadingsFrom(s, i + 2) + 0;
  }

  lemma JoinedAtHeading(s: string, from: nat, i: nat, rest: string)
    requires from <= i && i + 3 <= |s| && s[i..i + 3] == "## " && rest == s[i + 3..]
    ensures s[from..i] + "## " + rest == s[from..]
  {
    assert s[from..] == s[from..i] + s[i..i + 3] + s[i + 3..];
  }

  /** Where the `k`-th cut falls once the pieces are joined back: the
      length of the first `k` pieces with the delimiters between them. */
  function CutAt(r: seq<string>, k: nat): nat
    requires k <= |r|
  {
    |Join(r[..k], "## ")|
  }

  /** Every cut of `r`, placed at `from`, is a line-start heading of `s`. */
  predicate CutsAtHeadings(s: string, from: nat, r: seq<string>) {
    forall k :: 1 <= k < |r| ==> HeadingAt(s, from + CutAt(r, k))
  }

  /** The cuts after a first piece are those of the rest, shifted past the
      first piece and its delimiter. */
  lemma CutAtCons(head: string, tail: seq<string>, k: nat)
    requires 2 <= k <= |tail| + 1
    ensures CutAt([head] + tail, k) == |head| + 3 + CutAt(tail, k - 1)
  {
    assert ([head] + tail)[..k] == [head] + tail[..k - 1];
    JoinCons(head, tail[..k - 1], "## ");
  }

  lemma CutsAfterHeading(s: string, from: nat, i: nat, tail: seq<string>)
    requires from <= i && HeadingAt(s, i) && |tail| >= 1
    requires CutsAtHeadings(s, i + 3, tail)
    ensures CutsAtHeadings(s, from, [s[from..i]] + tail)
  {
    var r := [s[from..i]] + tail;
    forall k | 1 <= k < |r|
      ensures HeadingAt(s, from + CutAt(r, k))
    {
      if k == 1 {
        assert r[..1] == [s[from..i]];
      } else {
        CutAtCons(s[from..i], tail, k);
      }
    }
  }

  /** The pieces of `s.split(/^## /m)` from position `from` on. A heading is
      recognised by looking at the whole string, so "## ## x" splits once. */
  function SectionsFrom(s: string, from: nat): (r: seq<string>)
    requires from <= |s|
    ensures |r| == 1 + HeadingsFrom(s, from)
    ensures Join(r, "## ") == s[from..]
    ensures CutsAtHeadings(s, from, r)
    decreases |s| - from
  {
    match NextHeading(s, from)
    case None =>
      HeadingsSkip(s, from, |s| + 1);
      [s[from..]]
    case Some(i) =>
      HeadingsSkip(s, from, i);
      HeadingsFromHeading(s, i);
      var tail := SectionsFrom(s, i + 3);
      JoinCons(s[from..i], tail, "## ");
      JoinedAtHeading(s, from, i, Join(tail, "## "));
      CutsAfterHeading(s, from, i, tail);
      [s[from..i]] + tail
  }

  /** `s.split(/^## /m)`: one piece more than there are headings; joining
      the pieces with "## " gives back `s`, and every cut between two pieces
      is a line-start "## ". As the cuts are distinct and as many as the
      headings, they are exactly the headings. */
  function Sections(s: string): (r: seq<string>)
    ensures |r| == 1 + HeadingCount(s)
    ensures Join(r, "## ") == s
    ensures forall k :: 1 <= k < |r| ==> HeadingAt(s, CutAt(r, k))
  {
    SectionsFrom(s, 0)
  }

  /** The text before the first heading, or all of it. */
  function Preamble(s: string): (r: string)
    ensures r == Sections(s)[0]
  {
    match NextHeading(s, 0)
    case None => s
    case Some(i) => s[..i]
  }

  // ---------------------------------------------------------------------
  // The title line: `/^# .*$/m`

  /** A line-start "# " begins at `i`. */
  predicate TitleAt(s: string, i: int) {
    OccursAt(s, "# ", i) && (i == 0 || s[i - 1] == '\n')
  }

  function NextTitle(s: string, from: nat): (r: Option<nat>)
    requires from <= |s|
    ensures r.Some? ==> from <= r.value && TitleAt(s, r.value)
    ensures r.Some? ==> forall j :: from <= j < r.value ==> !TitleAt(s, j)
    ensures r.None? ==> forall j :: from <= j ==> !TitleAt(s, j)
    decreases |s| - from
  {
    if from == |s| then None
    else if TitleAt(s, from) then Some(from)
    else NextTitle(s, from + 1)
  }

  /** Where the line that contains position `i` ends: its line break, or the
      end of the text. */
  function LineEnd(s: string, i: nat): (e: nat)
    requires i <= |s|
    ensures i <= e <= |s|
    ensures e == |s| || s[e] == '\n'
    ensures forall j :: i <= j < e ==> s[j] != '\n'
  {
    match IndexFrom(s, "\n", i)
    case None =>
      assert forall j :: i <= j < |s| ==> s[j] != '\n' by {
        forall j | i <= j < |s| ensures s[j] != '\n' {
          assert !OccursAt(s, "\n", j);
          assert s[j..j + 1] == [s[j]];
        }
      }
      |s|
    case Some(e) =>
      assert s[e..e + 1] == [s[e]];
      assert forall j :: i <= j < e ==> s[j] != '\n' by {
        forall j | i <= j < e ensures s[j] != '\n' {
          assert !OccursAt(s, "\n", j);
          assert s[j..j + 1] == [s[j]];
        }
      }
      e
  }

  /** `s.replace(/^# .*$/m, "")`: the first line that starts with "# " is
      emptied; the line break after it stays, and nothing else changes. */
  function StripTitle(s: string): (r: string)
    ensures NextTitle(s, 0).None? ==> r == s
    ensures NextTitle(s, 0).Some? ==>
      var i := NextTitle(s, 0).value;
      exists e :: i + 2 <= e <= |s| && (e == |s| || s[e] == '\n')
        && (forall j :: i <= j < e ==> s[j] != '\n')
        && r == s[..i] + s[e..]
  {
    match NextTitle(s, 0)
    case None => s
    case Some(i) =>
      var e := LineEnd(s, i);
      assert s[i..i + 2] == "# ";
      assert s[i..i + 2][0] == s[i] && s[i..i + 2][1] == s[i + 1];
      s[..i] + s[e..]
  }

  // ---------------------------------------------------------------------
  // One command section

  /** The part of a section after its heading line, trimmed. */
  function SectionBody(block: string): string {
    Trim(AfterFirstLine(block))
  }

  /** `body.split("```")[1].trim()`: the text between the first fence and the
      next one (or the end), if there is a fence at all. */
  function FencedText(body: string): (r: Option<string>)
    ensures r.None? <==> !Contains(body, Fence)
    ensures r.Some? ==> Trimmed(r.value)
    ensures r.Some? ==>
      var rest := body[IndexOf(body, Fence).value + |Fence|..];
      r.value == Trim(if Contains(rest, Fence) then rest[..IndexOf(rest, Fence).value] else rest)
  {
    var pieces := Split(body, Fence);
    if |pieces| < 2 then None else Some(Trim(pieces[1]))
  }

  /** One piece of `content.split(/^## /m).slice(1)` becomes a command:
      the name is the first line; the description is the text before the
      first fence; the fenced text's first line is the tag and the rest is
      the body. A section without a fence has no command (the script reads
      an undefined piece there and throws). */
  function ParseSection(block: string): (r: Option<Command>)
    ensures r.None? <==> !Contains(SectionBody(block), Fence)
  {
    var body := SectionBody(block);
    match FencedText(body)
    case None => None
    case Some(fenced) =>
      var pieces := Split(body, Fence);
      Some(Command(Trim(FirstLine(block)), Trim(pieces[0]), Trim(FirstLine(fenced)), RestLines(fenced)))
  }

  /** A section has a command exactly when a fence follows its heading line. */
  lemma SectionNeedsFence(block: string)
    ensures ParseSection(block).None? <==> !Contains(AfterFirstLine(block), Fence)
  {
    TrimKeepsContains(AfterFirstLine(block), Fence);
  }

  /** What a parsed command looks like: its name and tag are single trimmed
      lines, its description is trimmed, and neither the description nor the
      body contains a fence. */
  lemma SectionShape(block: string)
    requires ParseSection(block).Some?
    ensures var c := ParseSection(block).value;
      && c.name == Trim(FirstLine(block))
      && !Contains(c.name, "\n") && Trimmed(c.name)
      && !Contains(c.info, Fence) && Trimmed(c.info)
      && !Contains(c.tag, "\n") && Trimmed(c.tag)
      && !Contains(c.code, Fence)
  {
    var body := SectionBody(block);
    var fenced := FencedText(body).value;
    var pieces := Split(body, Fence);
    TrimmedAvoids(pieces[1], Fence);
    TrimmedAvoids(FirstLine(block), "\n");
    TrimmedAvoids(pieces[0], Fence);
    TrimmedAvoids(FirstLine(fenced), "\n");
    RestLinesAvoids(fenced, Fence);
  }

  /** The description is the trimmed text before the first fence. */
  lemma SectionInfo(block: string)
    requires ParseSection(block).Some?
    ensures var body := SectionBody(block);
      && Contains(body, Fence)
      && ParseSection(block).value.info == Trim(body[..IndexOf(body, Fence).value])
  {
    var body := SectionBody(block);
    assert ParseSection(block).value.info == Trim(Split(body, Fence)[0]);
    FirstPiece(body, Fence);
  }

  lemma FirstPiece(s: string, sep: string)
    requires sep != [] && Contains(s, sep)
    ensures IndexOf(s, sep).Some? && Split(s, sep)[0] == s[..IndexOf(s, sep).value]
  {
  }

  /** The tag is the fenced text's first line, trimmed; the body is the
      rest of the fenced text after that line, verbatim, or empty when there
      is no second line. */
  lemma SectionCode(block: string)
    requires ParseSection(block).Some?
    ensures var fenced := FencedText(SectionBody(block)).value;
      var c := ParseSection(block).value;
      && c.tag == Trim(FirstLine(fenced))
      && (Contains(fenced, "\n") ==> FirstLine(fenced) + "\n" + c.code == fenced)
      && (!Contains(fenced, "\n") ==> c.code == "")
  {
  }

  /** A command written out as the text of its section (everything after the
      "## " of its heading): the name line, the description, then the fenced
      block whose opening line carries the tag. */
  function RenderSection(c: Command): string {
    c.name + "\n" + c.info + "\n" + Fence + c.tag + "\n" + c.code + "\n" + Fence
  }

  /** The commands a section can spell so that parsing gives them back: one
      line for the name and the tag, no fence inside the description, tag or
      body, no white space at the ends of the fields that are trimmed
      (the body is trimmed at its end only, together with the fenced text). */
  predicate WellFormed(c: Command) {
    && Trimmed(c.name) && !Contains(c.name, "\n")
    && Trimmed(c.info) && !Contains(c.info, Fence)
    && c.tag != [] && Trimmed(c.tag) && !Contains(c.tag, "\n") && !Contains(c.tag, Fence)
    && !Contains(c.code, Fence) && (c.code == [] || !IsSpace(c.code[|c.code| - 1]))
  }

  lemma FenceHasNoBreak()
    ensures Fence != [] && forall t :: 0 <= t < |Fence| ==> Fence[t] != '\n'
    ensures !IsSpace(Fence[0]) && !IsSpace(Fence[|Fence| - 1])
  {
  }

  /** The text between the two fences of a rendered section. */
  function RenderedInner(c: Command): string {
    c.tag + "\n" + c.code + "\n"
  }

  /** The text before the first fence of a rendered section, once trimmed. */
  function RenderedLead(c: Command): string {
    if c.info == [] then [] else c.info + "\n"
  }

  /** A rendered section's body as the parser sees it after trimming. */
  function RenderedBody(c: Command): string {
    RenderedLead(c) + RenderedBlock(c)
  }

  /** The fenced block of a rendered section. */
  function RenderedBlock(c: Command): string {
    Fence + RenderedInner(c) + Fence
  }

  lemma Regroup(a: string, b: string, c: string, d: string)
    ensures a + (b + c + d) == a + b + (c + d)
  {
  }

  /** Regrouping a rendered section around its name line. */
  lemma RenderedLines(name: string, info: string, tag: string, code: string)
    ensures name + "\n" + info + "\n" + Fence + tag + "\n" + code + "\n" + Fence
         == name + "\n" + (info + "\n" + (Fence + (tag + "\n" + code + "\n") + Fence))
  {
  }

  /** Trimming the text after a name line: the description, when present,
      keeps its line break; the fenced block is kept whole. */
  lemma TrimAfterName(info: string, tail: string)
    requires Trimmed(info) && tail != [] && !IsSpace(tail[0]) && !IsSpace(tail[|tail| - 1])
    ensures Trim(info + "\n" + tail) == (if info == [] then [] else info + "\n") + tail
  {
    if info == [] {
      assert info + "\n" + tail == "\n" + tail + "";
      TrimPadded("\n", tail, "");
    } else {
      var all := info + "\n" + tail;
      assert all[0] == info[0] && all[|all| - 1] == tail[|tail| - 1];
      assert all == "" + all + "";
      TrimPadded("", all, "");
    }
  }

  /** The name line of a rendered section is its name; the text after it,
      trimmed, is the description followed by the fenced block. */
  lemma RenderedSectionBody(c: Command)
    requires WellFormed(c)
    ensures Trim(FirstLine(RenderSection(c))) == c.name
    ensures SectionBody(RenderSection(c)) == RenderedBody(c)
  {
    var tail := RenderedBlock(c);
    RenderedLines(c.name, c.info, c.tag, c.code);
    LineBreakSplits(c.name, c.info + "\n" + tail);
    TrimOfTrimmed(c.name);
    TrimAfterName(c.info, tail);
  }

  /** Neither the lead nor the inner text of a rendered section holds a
      fence, and neither ends in a character a fence starts with. */
  lemma RenderedLeadAvoidsFence(c: Command)
    requires WellFormed(c)
    ensures !Contains(RenderedLead(c), Fence)
    ensures RenderedLead(c) == [] || forall t :: 0 <= t < |Fence| ==> Fence[t] != RenderedLead(c)[|RenderedLead(c)| - 1]
  {
    FenceHasNoBreak();
    if c.info != [] {
      AvoidsAcrossBreak(c.info, "", Fence);
      assert c.info + "\n" + "" == RenderedLead(c);
    }
  }

  lemma RenderedInnerAvoidsFence(c: Command)
    requires WellFormed(c)
    ensures !Contains(RenderedInner(c), Fence)
    ensures forall t :: 0 <= t < |Fence| ==> Fence[t] != RenderedInner(c)[|RenderedInner(c)| - 1]
  {
    FenceHasNoBreak();
    AvoidsAcrossBreak(c.tag, c.code, Fence);
    AvoidsAcrossBreak(c.tag + "\n" + c.code, "", Fence);
    assert RenderedInner(c) == (c.tag + "\n" + c.code) + "\n" + "";
  }

  /** The fences split a rendered body into the lead and the inner text. */
  lemma RenderedPieces(c: Command)
    requires WellFormed(c)
    ensures var pieces := Split(RenderedBody(c), Fence);
      |pieces| >= 2 && pieces[0] == RenderedLead(c) && pieces[1] == RenderedInner(c)
  {
    var lead := RenderedLead(c);
    var inner := RenderedInner(c);
    RenderedLeadAvoidsFence(c);
    RenderedInnerAvoidsFence(c);
    Regroup(lead, Fence, inner, Fence);
    SplitAtFirst(lead, Fence, inner + Fence);
    assert inner + Fence == inner + Fence + "";
    SplitAtFirst(inner, Fence, "");
  }

  lemma RenderedDescription(c: Command)
    requires WellFormed(c)
    ensures Trim(RenderedLead(c)) == c.info
  {
    if c.info != [] {
      assert c.info + "\n" == "" + c.info + "\n";
      TrimPadded("", c.info, "\n");
    }
  }

  lemma RenderedFencedNoCode(tag: string)
    requires tag != [] && Trimmed(tag) && !Contains(tag, "\n")
    ensures Trim(tag + "\n" + [] + "\n") == tag
    ensures FirstLine(tag) == tag && RestLines(tag) == []
  {
    assert tag + "\n" + [] + "\n" == "" + tag + "\n\n";
    TrimPadded("", tag, "\n\n");
    NoLineBreak(tag);
  }

  lemma RenderedFencedWithCode(tag: string, code: string)
    requires tag != [] && Trimmed(tag) && !Contains(tag, "\n")
    requires code != [] && !IsSpace(code[|code| - 1])
    ensures Trim(tag + "\n" + code + "\n") == tag + "\n" + code
    ensures FirstLine(tag + "\n" + code) == tag && RestLines(tag + "\n" + code) == code
  {
    var core := tag + "\n" + code;
    assert core[0] == tag[0] && core[|core| - 1] == code[|code| - 1];
    assert tag + "\n" + code + "\n" == "" + core + "\n";
    TrimPadded("", core, "\n");
    LineBreakSplits(tag, code);
  }

  lemma RenderedFenced(c: Command)
    requires WellFormed(c)
    ensures Trim(FirstLine(Trim(RenderedInner(c)))) == c.tag
    ensures RestLines(Trim(RenderedInner(c))) == c.code
  {
    if c.code == [] {
      RenderedFencedNoCode(c.tag);
    } else {
      RenderedFencedWithCode(c.tag, c.code);
    }
    TrimOfTrimmed(c.tag);
  }

  /** Parsing a rendered well-formed section gives the command back: the
      body in particular comes through verbatim, leading white space and
      inner line breaks included. */
  lemma SectionRoundTrip(c: Command)
    requires WellFormed(c)
    ensures ParseSection(RenderSection(c)) == Some(c)
  {
    RenderedSectionBody(c);
    RenderedPieces(c);
    RenderedDescription(c);
    RenderedFenced(c);
  }

  // ---------------------------------------------------------------------
  // Whole documents

  /** Gathers per-section results the way `Array.prototype.map` meets a
      throwing callback: all values when every section parsed, otherwise the
      index of the first section that did not. */
  function Collect(parsed: seq<Option<Command>>): (r: Result<seq<Command>, nat>)
    ensures r.Success? <==> forall k :: 0 <= k < |parsed| ==> parsed[k].Some?
    ensures r.Success? ==> |r.value| == |parsed|
    ensures r.Success? ==> forall k :: 0 <= k < |parsed| ==> parsed[k] == Some(r.value[k])
    ensures r.Failure? ==> r.error < |parsed| && parsed[r.error].None?
    ensures r.Failure? ==> forall k :: 0 <= k < r.error ==> parsed[k].Some?
  {
    if |parsed| == 0 then Success([])
    else match parsed[0]
      case None => Failure(0)
      case Some(c) =>
        match Collect(parsed[1..])
        case Failure(k) => Failure(k + 1)
        case Success(cs) => Success([c] + cs)
  }

  /** `blocks.map(parseSection)`: every section's command, in order, or the
      index of the first section without a fence. */
  function ParseSections(blocks: seq<string>): (r: Result<seq<Command>, nat>)
    ensures r.Success? <==> forall k :: 0 <= k < |blocks| ==> ParseSection(blocks[k]).Some?
    ensures r.Success? ==> |r.value| == |blocks|
    ensures r.Success? ==> forall k :: 0 <= k < |blocks| ==> ParseSection(blocks[k]) == Some(r.value[k])
    ensures r.Failure? ==> r.error < |blocks| && ParseSection(blocks[r.error]).None?
    ensures r.Failure? ==> forall k :: 0 <= k < r.error ==> ParseSection(blocks[k]).Some?
  {
    Collect(ParseEach(blocks))
  }

  /** Every section parsed on its own, in order. */
  function ParseEach(blocks: seq<string>): (r: seq<Option<Command>>)
    ensures |r| == |blocks|
    ensures forall k :: 0 <= k < |blocks| ==> r[k] == ParseSection(blocks[k])
  {
    MapSeq(ParseSection, blocks)
  }

  /** `xs.map(f)` for a callback that does not throw. */
  function MapSeq<A, B>(f: A -> B, xs: seq<A>): (r: seq<B>)
    ensures |r| == |xs|
    ensures forall k :: 0 <= k < |xs| ==> r[k] == f(xs[k])
  {
    if |xs| == 0 then [] else [f(xs[0])] + MapSeq(f, xs[1..])
  }

  /** One document: the text is trimmed, split at its headings; the preamble
      with its title line removed is the description, and every later piece
      is one command, in order. */
  function ParseDocument(text: string): (r: Result<Document, nat>)
    ensures r.Success? ==> |r.value.commands| == HeadingCount(Trim(text))
    ensures r.Success? ==> r.value.info == Trim(StripTitle(Preamble(Trim(text))))
    ensures r.Failure? ==> r.error < HeadingCount(Trim(text))
  {
    var content := Trim(text);
    var pieces := Sections(content);
    match ParseSections(pieces[1..])
    case Failure(k) => Failure(k)
    case Success(cs) => Success(Document(Trim(StripTitle(pieces[0])), cs))
  }

  /** The commands of a document are its sections, in order: the k-th
      command is what the k-th heading's section parses to. */
  lemma DocumentCommandsInOrder(text: string, k: nat)
    requires ParseDocument(text).Success?
    requires k < |ParseDocument(text).value.commands|
    ensures ParseSection(Sections(Trim(text))[k + 1]) == Some(ParseDocument(text).value.commands[k])
  {
    var pieces := Sections(Trim(text));
    assert pieces[1..][k] == pieces[k + 1];
  }

  lemma SectionsFailAt(pieces: seq<string>)
    requires |pieces| >= 1
    ensures ParseSections(pieces[1..]).Failure? <==>
      exists k :: 1 <= k < |pieces| && ParseSection(pieces[k]).None?
  {
    if ParseSections(pieces[1..]).Failure? {
      var k := ParseSections(pieces[1..]).error;
      assert pieces[1..][k] == pieces[k + 1];
    }
    forall k | 1 <= k < |pieces| && ParseSection(pieces[k]).None?
      ensures ParseSections(pieces[1..]).Failure?
    {
      assert pieces[1..][k - 1] == pieces[k];
    }
  }

  /** A document fails to parse exactly when one of its sections has no fence. */
  lemma DocumentFailsOnMissingFence(text: string)
    ensures ParseDocument(text).Failure? <==>
      exists k :: 1 <= k < |Sections(Trim(text))| && ParseSection(Sections(Trim(text))[k]).None?
  {
    SectionsFailAt(Sections(Trim(text)));
  }
}

=== FILE: pipeline.dfy ===
/** One whole invocation: the discovered documents are sorted by path,
    every one of them is read and parsed, and only then are the arguments
    looked at. Reading a file is a parameter (`read`), as is everything
    the outside world answers while a command runs (`env`). */
module Pipeline {
  import opened Wrappers
  import opened Markdown
  import opened Sources
  import opened Dispatch
  import opened Execution

  /** A document in which section `section` has no fenced block. */
  datatype ParseFailure = ParseFailure(source: string, section: nat)

  /** The error the runtime raises when a section has no fenced block: the
      missing piece after the split is read. */
  const MissingFenceError := "TypeError: Cannot read properties of undefined (reading 'trim')"

  /** Parses the documents in the given order (`parse` reads and parses
      one path); the first document that does not parse stops everything. */
  function Load(paths: seq<string>, parse: string -> Result<Document, nat>): (r: Result<seq<Module>, ParseFailure>)
    ensures r.Success? ==> |r.value| == |paths|
    ensures r.Success? ==> forall k :: 0 <= k < |paths| ==>
      && r.value[k].source == paths[k]
      && parse(paths[k]) == Success(Document(r.value[k].info, r.value[k].commands))
    ensures r.Failure? <==> exists k :: 0 <= k < |paths| && parse(paths[k]).Failure?
    ensures r.Failure? ==>
      exists k :: (0 <= k < |paths| && paths[k] == r.error.source
        && parse(paths[k]) == Failure(r.error.section)
        && forall j :: 0 <= j < k ==> parse(paths[j]).Success?)
  {
    if paths == [] then
      Success([])
    else
      match parse(paths[0])
      case Failure(section) =>
        Failure(ParseFailure(paths[0], section))
      case Success(doc) =>
        var rest := Load(paths[1..], parse);
        assert forall k :: 0 < k < |paths| ==> paths[k] == paths[1..][k - 1];
        match rest
        case Failure(e) =>
          var k :| 0 <= k < |paths[1..]| && paths[1..][k] == e.source
            && parse(paths[1..][k]) == Failure(e.section)
            && forall j :: 0 <= j < k ==> parse(paths[1..][j]).Success?;
          assert paths[k + 1] == e.source;
          Failure(e)
        case Success(ms) =>
          Success([Module(paths[0], doc.info, doc.commands)] + ms)
  }

  /** Reads one document and parses it: the `parse` argument below. */
  function ParseFile(read: string -> string): string -> Result<Document, nat>
  {
    path => ParseDocument(read(path))
  }

  /** The decision for one invocation, from the paths in the order they
      were discovered; `parse` reads and parses one path (`ParseFile`). */
  function Invoke(found: seq<string>, parse: string -> Result<Document, nat>, argv: seq<string>): Result<Outcome, ParseFailure>
  {
    match Load(SortPaths(found), parse)
    case Failure(e) => Failure(e)
    case Success(ms) => Success(Decide(ms, argv))
  }

  /** The effects of one invocation, as the script is written. */
  function Effects(found: seq<string>, parse: string -> Result<Document, nat>, argv: seq<string>, env: Env): seq<Effect>
  {
    match Invoke(found, parse, argv)
    case Failure(_) => [Uncaught(MissingFenceError), Exit(1)]
    case Success(o) => ExecuteAsWritten(o, env)
  }

  /** The effects of one invocation with `--list-commands` corrected. */
  function CorrectedEffects(found: seq<string>, parse: string -> Result<Document, nat>, argv: seq<string>, env: Env): seq<Effect>
  {
    match Invoke(found, parse, argv)
    case Failure(_) => [Uncaught(MissingFenceError), Exit(1)]
    case Success(o) => Execute(o, env)
  }

  /** The script as written and the corrected one differ only on a
      successful `--list-commands`: there the script dies on the undeclared
      variable with status 1, and the correction prints the names and
      exits 0. */
  lemma CorrectionOnlyListsCommands(found: seq<string>, parse: string -> Result<Document, nat>, argv: seq<string>, env: Env)
    ensures !(|argv| > 2 && argv[2] == "--list-commands") ==>
      Effects(found, parse, argv, env) == CorrectedEffects(found, parse, argv, env)
    ensures |argv| > 2 && argv[2] == "--list-commands" && Invoke(found, parse, argv).Success? ==>
      && Effects(found, parse, argv, env) == [Uncaught(UndeclaredCommands), Exit(1)]
      && CorrectedEffects(found, parse, argv, env)[|CorrectedEffects(found, parse, argv, env)| - 1] == Exit(0)
  {
    match Invoke(found, parse, argv)
    case Failure(_) =>
    case Success(o) =>
      if o.ListCommands? {
        assert |argv| > 2 && argv[2] == "--list-commands";
      }
  }

  /** A document without a fenced block in one of its sections breaks
      every invocation, whatever the arguments, even a plain listing. */
  lemma ParseFailureIgnoresArguments(found: seq<string>, parse: string -> Result<Document, nat>, argv: seq<string>, argv': seq<string>)
    requires exists k :: 0 <= k < |found| && parse(found[k]).Failure?
    ensures Invoke(found, parse, argv).Failure?
    ensures Invoke(found, parse, argv) == Invoke(found, parse, argv')
  {
    var k :| 0 <= k < |found| && parse(found[k]).Failure?;
    var sorted := SortPaths(found);
    assert found[k] in multiset(sorted);
    var j :| 0 <= j < |sorted| && sorted[j] == found[k];
  }

  /** Such a failure ends the process with status 1, through the
      runtime's uncaught error, before anything is printed or written. */
  lemma ParseFailureEffects(found: seq<string>, parse: string -> Result<Document, nat>, argv: seq<string>, env: Env)
    requires exists k :: 0 <= k < |found| && parse(found[k]).Failure?
    ensures Effects(found, parse, argv, env) == [Uncaught(MissingFenceError), Exit(1)]
    ensures CorrectedEffects(found, parse, argv, env) == Effects(found, parse, argv, env)
  {
    ParseFailureIgnoresArguments(found, parse, argv, argv);
  }

  /** The order the directory walk found the documents in does not matter. */
  lemma DiscoveryOrderIrrelevant(found: seq<string>, found': seq<string>, parse: string -> Result<Document, nat>, argv: seq<string>)
    requires multiset(found) == multiset(found')
    ensures Invoke(found, parse, argv) == Invoke(found', parse, argv)
  {
    SortIgnoresDiscoveryOrder(found, found');
  }

  /** A run executes the body of the first command with the requested
      name, scanning documents by sorted path and sections in order. */
  lemma RunsFirstMatch(found: seq<string>, parse: string -> Result<Document, nat>, argv: seq<string>)
    requires Invoke(found, parse, argv).Success? && Invoke(found, parse, argv).value.Run?
    ensures var ms := Load(SortPaths(found), parse).value;
      var o := Invoke(found, parse, argv).value;
      exists p :: FirstNamed(ms, p, argv[2]) && ms[p.doc].source == SortPaths(found)[p.doc]
        && CommandAt(ms, p).code == o.code && CommandAt(ms, p).tag == o.tag
  {
    var ms := Load(SortPaths(found), parse).value;
    var p := LookupIsFirst(ms, argv[2]);
  }
}

=== FILE: sources.dfy ===
/** The order in which documents are consulted: the discovered paths,
    sorted by the default string order of the runtime. Discovery itself
    is outside the model; its result is an input here. */
module Sources {

  /** Lexicographic order on strings, character by character, a proper
      prefix first. */
  predicate LessEq(a: string, b: string)
    decreases |a|
  {
    a == [] || (b != [] && (a[0] < b[0] || (a[0] == b[0] && LessEq(a[1..], b[1..]))))
  }

  lemma {:induction false} LessEqReflexive(a: string)
    ensures LessEq(a, a)
    decreases |a|
  {
    if a != [] {
      LessEqReflexive(a[1..]);
    }
  }

  lemma {:induction false} LessEqTotal(a: string, b: string)
    ensures LessEq(a, b) || LessEq(b, a)
    decreases |a|
  {
    if a != [] && b != [] && a[0] == b[0] {
      LessEqTotal(a[1..], b[1..]);
    }
  }

  lemma {:induction false} LessEqAntisymmetric(a: string, b: string)
    requires LessEq(a, b) && LessEq(b, a)
    ensures a == b
    decreases |a|
  {
    if a != [] {
      LessEqAntisymmetric(a[1..], b[1..]);
      assert a == [a[0]] + a[1..] && b == [b[0]] + b[1..];
    }
  }

  lemma {:induction false} LessEqTransitive(a: string, b: string, c: string)
    requires LessEq(a, b) && LessEq(b, c)
    ensures LessEq(a, c)
    decreases |a|
  {
    if a != [] && b != [] && c != [] && a[0] == b[0] && b[0] == c[0] {
      LessEqTransitive(a[1..], b[1..], c[1..]);
    }
  }

  predicate Sorted(s: seq<string>) {
    forall i, j :: 0 <= i < j < |s| ==> LessEq(s[i], s[j])
  }

  /** `x` is at or before every element of `s`. */
  predicate Below(x: string, s: seq<string>) {
    forall k :: 0 <= k < |s| ==> LessEq(x, s[k])
  }

  lemma SortedCons(x: string, s: seq<string>)
    requires Below(x, s) && Sorted(s)
    ensures Sorted([x] + s)
  {
    forall i, j | 0 <= i < j < |[x] + s|
      ensures LessEq(([x] + s)[i], ([x] + s)[j])
    {
      if i > 0 {
        assert ([x] + s)[i] == s[i - 1] && ([x] + s)[j] == s[j - 1];
      } else {
        assert ([x] + s)[j] == s[j - 1];
      }
    }
  }

  lemma SortedHead(s: seq<string>)
    requires Sorted(s) && s != []
    ensures Below(s[0], s[1..]) && Sorted(s[1..])
  {
    forall k | 0 <= k < |s[1..]|
      ensures LessEq(s[0], s[1..][k])
    {
      assert s[1..][k] == s[k + 1];
    }
    forall i, j | 0 <= i < j < |s[1..]|
      ensures LessEq(s[1..][i], s[1..][j])
    {
      assert s[1..][i] == s[i + 1] && s[1..][j] == s[j + 1];
    }
  }

  /** A lower bound of a sorted sequence's head bounds all of it. */
  lemma BelowSorted(x: string, s: seq<string>)
    requires Sorted(s) && s != [] && LessEq(x, s[0])
    ensures Below(x, s)
  {
    forall k | 0 < k < |s|
      ensures LessEq(x, s[k])
    {
      LessEqTransitive(x, s[0], s[k]);
    }
  }

  /** A lower bound is a property of the elements, not of their order. */
  lemma BelowElements(x: string, s: seq<string>, y: string, t: seq<string>)
    requires Below(x, s) && LessEq(x, y)
    requires multiset(t) == multiset(s) + multiset{y}
    ensures Below(x, t)
  {
    forall k | 0 <= k < |t|
      ensures LessEq(x, t[k])
    {
      assert t[k] in multiset(t);
      if t[k] != y {
        assert t[k] in multiset(s);
        var j :| 0 <= j < |s| && s[j] == t[k];
      }
    }
  }

  /** Places `x` before the first element it does not follow. */
  function Insert(x: string, s: seq<string>): (r: seq<string>)
    requires Sorted(s)
    ensures Sorted(r)
    ensures multiset(r) == multiset(s) + multiset{x}
  {
    if s == [] then
      [x]
    else if LessEq(x, s[0]) then
      BelowSorted(x, s);
      SortedCons(x, s);
      [x] + s
    else
      LessEqTotal(x, s[0]);
      SortedHead(s);
      var rest := Insert(x, s[1..]);
      BelowElements(s[0], s[1..], x, rest);
      SortedCons(s[0], rest);
      assert s == [s[0]] + s[1..];
      [s[0]] + rest
  }

  /** The paths in sorted order (an insertion sort). */
  function SortPaths(paths: seq<string>): (r: seq<string>)
    ensures Sorted(r)
    ensures multiset(r) == multiset(paths)
  {
    if paths == [] then
      []
    else
      assert paths == paths[..|paths| - 1] + [paths[|paths| - 1]];
      Insert(paths[|paths| - 1], SortPaths(paths[..|paths| - 1]))
  }

  /** Two sorted arrangements of the same elements start alike. */
  lemma SortedSameHead(a: seq<string>, b: seq<string>)
    requires Sorted(a) && Sorted(b) && a != [] && b != []
    requires multiset(a) == multiset(b)
    ensures a[0] == b[0]
  {
    assert a[0] in multiset(b);
    var j :| 0 <= j < |b| && b[j] == a[0];
    assert b[0] in multiset(a);
    var i :| 0 <= i < |a| && a[i] == b[0];
    LessEqReflexive(a[0]);
    LessEqReflexive(b[0]);
    assert LessEq(a[0], a[i]) && LessEq(b[0], b[j]);
    LessEqAntisymmetric(a[0], b[0]);
  }

  lemma SameTails(a: seq<string>, b: seq<string>)
    requires a != [] && b != [] && a[0] == b[0]
    requires multiset(a) == multiset(b)
    ensures multiset(a[1..]) == multiset(b[1..])
  {
    assert a == [a[0]] + a[1..] && b == [b[0]] + b[1..];
    assert multiset(a) == multiset{a[0]} + multiset(a[1..]);
    assert multiset(b) == multiset{a[0]} + multiset(b[1..]);
    assert multiset(a[1..]) == multiset(a) - multiset{a[0]} == multiset(b[1..]);
  }

  /** A sorted sequence is determined by its elements. */
  lemma {:induction false} SortedUnique(a: seq<string>, b: seq<string>)
    requires Sorted(a) && Sorted(b)
    requires multiset(a) == multiset(b)
    ensures a == b
    decreases |a|
  {
    assert |a| == |multiset(a)| == |multiset(b)| == |b|;
    if a != [] {
      SortedSameHead(a, b);
      SameTails(a, b);
      SortedHead(a);
      SortedHead(b);
      SortedUnique(a[1..], b[1..]);
      assert a == [a[0]] + a[1..] && b == [b[0]] + b[1..];
    }
  }

  /** The order documents are consulted in depends only on which paths
      were found, not on the order the directory walk found them in. */
  lemma SortIgnoresDiscoveryOrder(p: seq<string>, q: seq<string>)
    requires multiset(p) == multiset(q)
    ensures SortPaths(p) == SortPaths(q)
  {
    SortedUnique(SortPaths(p), SortPaths(q));
  }

  /** Sorting sorted paths changes nothing. */
  lemma SortIdempotent(p: seq<string>)
    ensures SortPaths(SortPaths(p)) == SortPaths(p)
  {
    SortedUnique(SortPaths(SortPaths(p)), SortPaths(p));
  }
}

=== FILE: text.dfy ===
/** The string primitives the parser is built from, with the JavaScript
    semantics the script relies on: `trim()`, `indexOf`, `split` with a
    string separator and `join`. Line breaks are "\n" only and white space is
    the ASCII set. */
module Text {
  import opened Wrappers

  /** The white space `String.prototype.trim` removes, restricted to ASCII. */
  predicate IsSpace(c: char) {
    c == ' ' || c == '\t' || c == '\n' || c == '\r' || c == '\U{0B}' || c == '\U{0C}'
  }

  predicate AllSpace(s: string) {
    forall i :: 0 <= i < |s| ==> IsSpace(s[i])
  }

  /** Neither end of `s` is white space: what `trim()` leaves behind. */
  predicate Trimmed(s: string) {
    s == [] || (!IsSpace(s[0]) && !IsSpace(s[|s| - 1]))
  }

  /** The first position at or after `i` that is not white space, or the end. */
  function SkipSpace(s: string, i: nat): (k: nat)
    requires i <= |s|
    ensures i <= k <= |s|
    ensures forall j :: i <= j < k ==> IsSpace(s[j])
    ensures k == |s| || !IsSpace(s[k])
    decreases |s| - i
  {
    if i == |s| || !IsSpace(s[i]) then i else SkipSpace(s, i + 1)
  }

  /** The end of `s[lo..hi]` once white space at its back is dropped. */
  function SkipSpaceBack(s: string, lo: nat, hi: nat): (k: nat)
    requires lo <= hi <= |s|
    ensures lo <= k <= hi
    ensures forall j :: k <= j < hi ==> IsSpace(s[j])
    ensures k == lo || !IsSpace(s[k - 1])
    decreases hi
  {
    if hi == lo || !IsSpace(s[hi - 1]) then hi else SkipSpaceBack(s, lo, hi - 1)
  }

  /** Where the trimmed text starts inside `s`. */
  function TrimStart(s: string): nat {
    SkipSpace(s, 0)
  }

  /** Where the trimmed text ends inside `s`. */
  function TrimEnd(s: string): nat {
    SkipSpaceBack(s, TrimStart(s), |s|)
  }

  /** `s.trim()`: the infix of `s` left after dropping white space at both
      ends; everything dropped is white space. */
  function Trim(s: string): (r: string)
    ensures Trimmed(r)
    ensures TrimStart(s) <= TrimEnd(s) <= |s| && r == s[TrimStart(s)..TrimEnd(s)]
    ensures forall j :: 0 <= j < TrimStart(s) ==> IsSpace(s[j])
    ensures forall j :: TrimEnd(s) <= j < |s| ==> IsSpace(s[j])
  {
    s[TrimStart(s)..TrimEnd(s)]
  }

  /** Trimming removes exactly the white space padding around a trimmed,
      non-empty core. Together with `TrimAllSpace` this pins `trim()` down. */
  lemma TrimPadded(a: string, core: string, b: string)
    requires AllSpace(a) && AllSpace(b) && Trimmed(core) && core != []
    ensures Trim(a + core + b) == core
  {
    var s := a + core + b;
    assert s[|a|] == core[0];
    assert s[|a| + |core| - 1] == core[|core| - 1];
    assert forall j :: 0 <= j < |a| ==> s[j] == a[j];
    assert forall j :: |a| + |core| <= j < |s| ==> s[j] == b[j - |a| - |core|];
    assert TrimStart(s) == |a|;
    assert TrimEnd(s) == |a| + |core|;
    assert s[|a|..|a| + |core|] == core;
  }

  /** A string already without white space at its ends is its own trim. */
  lemma TrimOfTrimmed(s: string)
    requires Trimmed(s)
    ensures Trim(s) == s
  {
    if s != [] {
      assert TrimStart(s) == 0;
      assert TrimEnd(s) == |s|;
    }
  }

  /** A string of white space alone trims to nothing. */
  lemma TrimAllSpace(s: string)
    requires AllSpace(s)
    ensures Trim(s) == []
  {
  }

  /** `trim()` is idempotent. */
  lemma TrimIdempotent(s: string)
    ensures Trim(Trim(s)) == Trim(s)
  {
    var t := Trim(s);
    if t != [] {
      assert TrimStart(t) == 0;
      assert TrimEnd(t) == |t|;
    }
  }

  // ---------------------------------------------------------------------
  // Searching

  predicate OccursAt(s: string, p: string, i: int) {
    0 <= i && i + |p| <= |s| && s[i..i + |p|] == p
  }

  predicate Contains(s: string, p: string) {
    exists i :: 0 <= i <= |s| - |p| && OccursAt(s, p, i)
  }

  /** `s.indexOf(p, from)`, searching from position `from`. */
  function IndexFrom(s: string, p: string, from: nat): (r: Option<nat>)
    requires from <= |s|
    ensures r.Some? ==> from <= r.value && OccursAt(s, p, r.value)
    ensures r.Some? ==> forall j :: from <= j < r.value ==> !OccursAt(s, p, j)
    ensures r.None? ==> forall j :: from <= j ==> !OccursAt(s, p, j)
    decreases |s| - from
  {
    if from + |p| > |s| then None
    else if s[from..from + |p|] == p then Some(from)
    else if from == |s| then None
    else IndexFrom(s, p, from + 1)
  }

  /** `s.indexOf(p)`: the first occurrence of `p`, if any. */
  function IndexOf(s: string, p: string): (r: Option<nat>)
    ensures r.Some? ==> OccursAt(s, p, r.value) && forall j :: 0 <= j < r.value ==> !OccursAt(s, p, j)
    ensures r.None? <==> !Contains(s, p)
  {
    IndexFrom(s, p, 0)
  }

  /** An occurrence inside an infix is an occurrence in the whole string. */
  lemma OccursInWhole(s: string, p: string, i: nat, j: nat, k: int)
    requires i <= j <= |s| && OccursAt(s[i..j], p, k)
    ensures OccursAt(s, p, i + k)
  {
    assert forall t :: 0 <= t < |p| ==> s[i + k..i + k + |p|][t] == p[t];
  }

  /** An occurrence lying within an infix is an occurrence in the infix. */
  lemma OccursInInfix(s: string, p: string, i: nat, j: nat, m: int)
    requires i <= m && m + |p| <= j <= |s| && OccursAt(s, p, m)
    ensures OccursAt(s[i..j], p, m - i)
  {
    assert forall t :: 0 <= t < |p| ==> s[i..j][m - i..m - i + |p|][t] == p[t];
  }

  /** An infix of a string without `p` has no `p` either. */
  lemma InfixAvoids(s: string, p: string, i: nat, j: nat)
    requires i <= j <= |s| && !Contains(s, p)
    ensures !Contains(s[i..j], p)
  {
    if Contains(s[i..j], p) {
      var k :| 0 <= k <= |s[i..j]| - |p| && OccursAt(s[i..j], p, k);
      OccursInWhole(s, p, i, j, k);
    }
  }

  /** Searching the trimmed string finds a pattern without white space exactly
      when searching the untrimmed one does. */
  lemma TrimKeepsContains(s: string, p: string)
    requires p != [] && !IsSpace(p[0]) && !IsSpace(p[|p| - 1])
    ensures Contains(Trim(s), p) <==> Contains(s, p)
  {
    var r := Trim(s);
    var k := TrimStart(s);
    if Contains(s, p) {
      var m :| 0 <= m <= |s| - |p| && OccursAt(s, p, m);
      OccurrenceWithinPadding(s, p, k, TrimEnd(s), m);
      OccursInInfix(s, p, k, TrimEnd(s), m);
    }
    if Contains(r, p) {
      var m :| 0 <= m <= |r| - |p| && OccursAt(r, p, m);
      OccursInWhole(s, p, k, TrimEnd(s), m);
    }
  }

  /** A pattern with non-space ends cannot overlap white space padding. */
  lemma OccurrenceWithinPadding(s: string, p: string, i: nat, j: nat, m: int)
    requires i <= j <= |s|
    requires forall t :: 0 <= t < i ==> IsSpace(s[t])
    requires forall t :: j <= t < |s| ==> IsSpace(s[t])
    requires p != [] && !IsSpace(p[0]) && !IsSpace(p[|p| - 1]) && OccursAt(s, p, m)
    ensures i <= m && m + |p| <= j
  {
    assert s[m..m + |p|][0] == s[m];
    assert s[m..m + |p|][|p| - 1] == s[m + |p| - 1];
  }

  /** The text before the first occurrence of `p` does not contain `p`. */
  lemma BeforeFirstAvoids(s: string, p: string, i: nat)
    requires p != [] && i <= |s| && forall j :: 0 <= j < i ==> !OccursAt(s, p, j)
    ensures !Contains(s[..i], p)
  {
    if Contains(s[..i], p) {
      var k :| 0 <= k <= i - |p| && OccursAt(s[..i], p, k);
      OccursInWhole(s, p, 0, i, k);
    }
  }

  // ---------------------------------------------------------------------
  // Splitting and joining

  /** `parts.join(sep)`; the empty array joins to the empty string. */
  function Join(parts: seq<string>, sep: string): string {
    if |parts| == 0 then ""
    else if |parts| == 1 then parts[0]
    else parts[0] + sep + Join(parts[1..], sep)
  }

  lemma ConcatAround(s: string, i: nat, n: nat)
    requires i + n <= |s|
    ensures s[..i] + s[i..i + n] + s[i + n..] == s
  {
  }

  lemma JoinCons(head: string, tail: seq<string>, sep: string)
    requires |tail| >= 1
    ensures Join([head] + tail, sep) == head + sep + Join(tail, sep)
  {
    assert ([head] + tail)[1..] == tail;
  }

  /** The occurrence at `i` is the leftmost one, so no occurrence starts
      inside `s[..i]` and reaches into the one at `i`. */
  lemma FirstCutLeftmost(s: string, p: string, i: nat)
    requires p != [] && OccursAt(s, p, i) && forall j :: 0 <= j < i ==> !OccursAt(s, p, j)
    ensures !Contains(s[..i] + p[..|p| - 1], p)
  {
    var m := i + |p| - 1;
    assert s[..i] + p[..|p| - 1] == s[..m] by {
      assert s[i..i + |p|][..|p| - 1] == p[..|p| - 1];
    }
    if Contains(s[..m], p) {
      var k :| 0 <= k <= m - |p| && OccursAt(s[..m], p, k);
      OccursInWhole(s, p, 0, m, k);
    }
  }

  /** `s.split(sep)` for a non-empty string separator: the pieces between
      successive leftmost, non-overlapping occurrences of `sep`. Joining them
      back with `sep` rebuilds `s`; no piece contains `sep`; every cut is at
      the leftmost occurrence after the piece before it (no occurrence starts
      inside a piece and runs into the separator that ends it); the first
      piece is everything before the first occurrence. */
  function Split(s: string, sep: string): (r: seq<string>)
    requires sep != []
    ensures |r| >= 1
    ensures Join(r, sep) == s
    ensures forall k :: 0 <= k < |r| ==> !Contains(r[k], sep)
    ensures forall k :: 0 <= k < |r| - 1 ==> !Contains(r[k] + sep[..|sep| - 1], sep)
    ensures |r| == 1 <==> !Contains(s, sep)
    ensures IndexOf(s, sep).None? ==> r[0] == s
    ensures IndexOf(s, sep).Some? ==> r[0] == s[..IndexOf(s, sep).value]
    decreases |s|
  {
    match IndexOf(s, sep)
    case None => [s]
    case Some(i) =>
      var head := s[..i];
      var tail := Split(s[i + |sep|..], sep);
      BeforeFirstAvoids(s, sep, i);
      FirstCutLeftmost(s, sep, i);
      ConcatAround(s, i, |sep|);
      JoinCons(head, tail, sep);
      [head] + tail
  }

  /** The pieces after the first, joined back, are the text after the first
      separator: `s.split(sep).slice(1).join(sep)`. */
  lemma SplitRest(s: string, sep: string)
    requires sep != []
    ensures IndexOf(s, sep).None? ==> Join(Split(s, sep)[1..], sep) == ""
    ensures IndexOf(s, sep).Some? ==>
      Join(Split(s, sep)[1..], sep) == s[IndexOf(s, sep).value + |sep|..]
  {
    match IndexOf(s, sep)
    case None =>
    case Some(i) =>
      assert Split(s, sep)[1..] == Split(s[i + |sep|..], sep);
  }

  /** `s.split("\n")[0]`: the text up to the first line break. */
  function FirstLine(s: string): (r: string)
    ensures !Contains(r, "\n")
    ensures |r| <= |s| && r == s[..|r|]
    ensures |r| < |s| ==> s[|r|] == '\n'
  {
    match IndexOf(s, "\n")
    case None => s
    case Some(i) =>
      BeforeFirstAvoids(s, "\n", i);
      assert s[i..i + 1][0] == s[i];
      s[..i]
  }

  /** The first line is the first piece of splitting at line breaks. */
  lemma FirstLineIsFirstPiece(s: string)
    ensures FirstLine(s) == Split(s, "\n")[0]
  {
  }

  /** `s.slice(s.indexOf("\n") + 1)`: the text after the first line break, or
      all of `s` when it has none (`indexOf` gives -1 and the slice starts at 0). */
  function AfterFirstLine(s: string): (r: string)
    ensures Contains(s, "\n") ==> FirstLine(s) + "\n" + r == s
    ensures !Contains(s, "\n") ==> r == s
  {
    match IndexOf(s, "\n")
    case None => s
    case Some(i) =>
      assert s[i..i + 1][0] == s[i];
      assert s[..i] + "\n" + s[i + 1..] == s;
      s[i + 1..]
  }

  /** `s.split("\n").slice(1).join("\n")`: the lines after the first, joined
      back, which is the text after the first line break verbatim, or nothing
      when there is a single line. */
  function RestLines(s: string): (r: string)
    ensures Contains(s, "\n") ==> FirstLine(s) + "\n" + r == s
    ensures !Contains(s, "\n") ==> r == ""
  {
    SplitRest(s, "\n");
    var r := Join(Split(s, "\n")[1..], "\n");
    if Contains(s, "\n") then
      var i := IndexOf(s, "\n").value;
      assert s[i..i + 1][0] == s[i];
      assert s[..i] + "\n" + s[i + 1..] == s;
      r
    else
      r
  }

  /** A string has no "\n" exactly when none of its characters is a line break. */
  lemma NoLineBreak(s: string)
    ensures !Contains(s, "\n") <==> forall j :: 0 <= j < |s| ==> s[j] != '\n'
  {
    if Contains(s, "\n") {
      var j :| 0 <= j <= |s| - 1 && OccursAt(s, "\n", j);
      assert s[j..j + 1][0] == s[j];
    }
    if exists j :: 0 <= j < |s| && s[j] == '\n' {
      var j :| 0 <= j < |s| && s[j] == '\n';
      assert s[j..j + 1] == [s[j]];
      assert OccursAt(s, "\n", j);
    }
  }

  /** A line break splits a string into what comes before and after it. */
  lemma LineBreakSplits(first: string, rest: string)
    requires !Contains(first, "\n")
    ensures FirstLine(first + "\n" + rest) == first
    ensures AfterFirstLine(first + "\n" + rest) == rest
    ensures RestLines(first + "\n" + rest) == rest
  {
    var s := first + "\n" + rest;
    assert OccursAt(s, "\n", |first|);
    var f := FirstLine(s);
    NoLineBreak(first);
    NoLineBreak(f);
    assert f == first;
    assert FirstLine(s) + "\n" + RestLines(s) == s;
    assert FirstLine(s) + "\n" + AfterFirstLine(s) == s;
  }

  /** Any infix of a string without `p` lacks `p`; in particular what is left
      of it after trimming. */
  lemma TrimmedAvoids(s: string, p: string)
    requires !Contains(s, p)
    ensures !Contains(Trim(s), p)
  {
    InfixAvoids(s, p, TrimStart(s), TrimEnd(s));
  }

  /** The text after the first line break of a string without `p` lacks `p`. */
  lemma RestLinesAvoids(s: string, p: string)
    requires p != [] && !Contains(s, p)
    ensures !Contains(RestLines(s), p)
  {
    if Contains(s, "\n") {
      var f := FirstLine(s);
      InfixAvoids(s, p, |f| + 1, |s|);
      assert s == f + "\n" + RestLines(s);
      assert s[|f| + 1..|s|] == RestLines(s);
    } else {
      assert RestLines(s) == [];
      assert !Contains([], p);
    }
  }

  /** When `a` has no `p` and cannot be the start of one that reaches into
      the `p` after it, the first piece of `(a + p + b).split(p)` is `a`. */
  lemma SplitAtFirst(a: string, p: string, b: string)
    requires p != [] && !Contains(a, p)
    requires a == [] || forall t :: 0 <= t < |p| ==> p[t] != a[|a| - 1]
    ensures Split(a + p + b, p) == [a] + Split(b, p)
  {
    var s := a + p + b;
    assert s[|a|..|a| + |p|] == p;
    assert OccursAt(s, p, |a|);
    forall j | 0 <= j < |a| ensures !OccursAt(s, p, j) {
      if j + |p| <= |a| {
        assert a[j..j + |p|] == s[j..j + |p|];
        assert !OccursAt(a, p, j);
      } else {
        assert s[j..j + |p|][|a| - 1 - j] == s[|a| - 1] == a[|a| - 1];
      }
    }
    assert IndexOf(s, p) == Some(|a|);
    assert s[..|a|] == a;
    assert s[|a| + |p|..] == b;
  }

  /** Two strings without `p`, put either side of a line break, still have
      no `p` when `p` itself has no line break. */
  lemma AvoidsAcrossBreak(x: string, y: string, p: string)
    requires !Contains(x, p) && !Contains(y, p)
    requires p != [] && forall t :: 0 <= t < |p| ==> p[t] != '\n'
    ensures !Contains(x + "\n" + y, p)
  {
    var s := x + "\n" + y;
    forall j | 0 <= j <= |s| - |p| ensures !OccursAt(s, p, j) {
      if j + |p| <= |x| {
        assert x[j..j + |p|] == s[j..j + |p|];
        assert !OccursAt(x, p, j);
      } else if j > |x| {
        assert y[j - |x| - 1..j - |x| - 1 + |p|] == s[j..j + |p|];
        assert !OccursAt(y, p, j - |x| - 1);
      } else {
        assert s[j..j + |p|][|x| - j] == s[|x|] == '\n';
      }
    }
  }
}

=== FILE: wrappers.dfy ===
/** Failure-carrying values used throughout the model in place of the
    exceptions and `undefined` reads of the script. */
module Wrappers {

  datatype Option<+T> = None | Some(value: T)

  datatype Result<+R, +E> = Success(value: R) | Failure(error: E)
}
